=== FILE: README.md ===
# Gallery extraction and HTML attribute cleaning, in Dafny

This project models the plot-gallery builder of a documentation site, and a small HTML attribute filter that sits beside it.

The gallery builder scans the example and tutorial notebooks. In each one it finds the code cells whose first line is a marker `# Gallery, <category>`. It pairs every such cell with its `display_data` outputs. For each pair it derives:

- a title, from the nearest markdown heading above the cell;
- a URL anchor, from a three-pass slug function;
- a link target;
- a thumbnail path.

It then groups the entries into sections whose order is fixed by a static table. It drops empty sections and rejects unknown categories. Any failure while processing a notebook is reported as that notebook's failure.

The HTML cleaner deletes the listed `id` values and class names from every element. A class attribute left empty is removed entirely.

Modules, one file each:

- `results.dfy` (`Results`): `Option` and `Result`.
- `chars.dfy` (`Chars`): ASCII `\w`, `\s` and `str.lower`, plus lexicographic string order.
- `slug.dfy` (`Slug`): `sanitize_filename` as its three regex passes.
- `markers.dfy` (`MarkerSyntax`): `GALLERY_RE.match`.
- `titles.dfy` (`Titles`): `str.splitlines`, `str.strip("# ")` and `get_gallery_image_title`.
- `notebooks.dfy` (`Notebooks`): cells, outputs, notebook files and the sorted, filtered notebook scan.
- `extraction.dfy` (`Extraction`): the marker/output pairing, link target and thumbnail path, and the per-notebook stream of steps.
- `sections.dfy` (`Sections`): the section table, the grouping and the method `RenderGalleryItems`.
- `html_cleaner.dfy` (`HtmlCleaner`): `remove_attributes` over abstract elements, and the comma-list flags of `main`.

Laziness matters in this program. `get_gallery_images_in_notebook` is a generator, and `render_gallery_items` classifies each image before it asks for the next. A thumbnail is written before its image reaches the classifier. An unknown tag therefore stops the run after that image's thumbnail is written, and notebooks later in the order are never opened. The model makes this explicit:

- each notebook yields a sequence of `Step`s;
- `Emit(image, thumbnail)` is one produced image;
- `Abort(path)` is a failure inside that notebook;
- the consumer stops at the first step it rejects.

An unknown tag is raised in the consumer, outside the `try` of `get_gallery_images`. It is therefore reported as `UnknownGalleryTag(category)`, not wrapped as `CouldNotProcess(path)`.

Some behaviour of the code is easy to misread, and the model keeps it as written:

- The slug function is not idempotent. Pass 1 deletes every character that is neither a word character nor whitespace, hyphens included, so `my-plot` becomes `myplot` (`Slug.SanitizeNotIdempotent`, `Slug.SanitizeIdempotentIff`).
- Only the first line of a cell can be a marker. `re.match` anchors at the start of the source even under `re.MULTILINE` (`MarkerSyntax.MarkerOnlyOnFirstLine`).
- A `# ` heading does not end the title search. It only records a fallback, and the loop goes on looking for a `### ` heading (`Titles.Level1DoesNotStop`).
- A tutorial notebook's target is its relative path with the `.ipynb` extension kept (`Extraction.TargetSpec`).
- Only the outputs of the marker cell itself are read. An image shown in a later cell yields no entry (`Extraction.ImageInLaterCellIgnored`); the layout that does yield one is in `Extraction.EndToEndExample`.

Where each source function is modelled:

| source function | model | its contract |
|---|---|---|
| `sanitize_filename` | `Slug.Sanitize` | `Slug.Sanitize*` lemmas |
| `GALLERY_RE.match` | `MarkerSyntax.MatchMarker` | `MarkerSyntax.MatchMarkerSpec` |
| `get_gallery_image_title` | `Titles.GalleryImageTitle` (`Titles.ScanTitle` over `Titles.MarkdownLines`) | `Titles.ScanTitleSpec` |
| the `gallery_output_nodes` generator | `Extraction.Markers` | `Extraction.MarkersMembership`, `Extraction.MarkersPrefix`, `Extraction.DisplayMarkersAppend` |
| `target_tpl` | `Extraction.Target` | `Extraction.TargetSpec` |
| the loop body of `get_gallery_images_in_notebook` | `Extraction.MakeImage`, `Extraction.EntrySteps` | `Extraction.MakeImageSpec`, `Extraction.EntryStepsShape` |
| `get_gallery_images` | `Extraction.GallerySteps` | `Sections.GalleryStepsAppend`, `Sections.FailureHidesLaterNotebooks` |
| `render_gallery_items` | `Sections.RenderGalleryItems` | `Sections.RenderSteps` |
| `remove_attributes` | `HtmlCleaner.RemoveAttributes` | `HtmlCleaner.RemoveAttributesSpec` |

## Model

All `source` paths below are in the `scripts` directory.

| member | source | states |
|---|---|---|
| Chars.Lower | scripts/create_gallery.py:62 | Lower-casing keeps the length, leaves no upper-case letter, and keeps every character's word/whitespace class |
| Chars.LexLeTotal | scripts/create_gallery.py:205-210 | Any two names are ordered one way or the other, which `sorted` relies on |
| Chars.LexLeTransitive | scripts/create_gallery.py:205-210 | The string order used by `sorted` is transitive |
| Slug.Sanitize | scripts/create_gallery.py:58-65 | The slug contains only lower-case word characters and hyphens |
| Slug.DropPunctuationAlphabet | scripts/create_gallery.py:29 | Pass 1 leaves only word characters and whitespace, all taken from its input |
| Slug.DropPunctuationKeeps | scripts/create_gallery.py:29 | Pass 1 keeps every word character, in order, and keeps whitespace present exactly when the input had some |
| Slug.CollapseNoAdjacentSpaces | scripts/create_gallery.py:30 | After pass 2 no two neighbouring characters are both whitespace |
| Slug.CollapseKeeps | scripts/create_gallery.py:30 | Pass 2 keeps the word characters in order, and keeps whitespace present exactly when the input had some |
| Slug.SanitizeHyphenPositions | scripts/create_gallery.py:31 | Each hyphen of the slug sits exactly where the collapsed text has whitespace |
| Slug.SanitizeKeepsWords | scripts/create_gallery.py:62-64 | The slug's word characters are exactly those of the lower-cased title, in order |
| Slug.SanitizeHyphenIffSpace | scripts/create_gallery.py:29-31 | The slug contains a hyphen if and only if the title contains whitespace: every hyphen comes from whitespace |
| Slug.SanitizeNoDoubleHyphen | scripts/create_gallery.py:30-31 | No two hyphens of the slug are adjacent |
| Slug.SanitizeSpaceRun | scripts/create_gallery.py:28-32 | A whitespace run between a word and text starting with a word character becomes exactly one hyphen: the word, a run of any length, then that text give the lower-cased word, one hyphen and the slug of the rest |
| Slug.SanitizeSpacedWords | scripts/create_gallery.py:28-32 | Two words separated by a whitespace run of any length give the lower-cased words joined by one hyphen |
| Slug.SanitizeHyphenatedWords | scripts/create_gallery.py:29 | Two words joined by a hyphen give the lower-cased words with the hyphen deleted |
| Slug.SanitizeTwice | scripts/create_gallery.py:58-65 | Sanitising a slug again keeps exactly its word characters, deleting its hyphens |
| Slug.SanitizeIdempotentIff | scripts/create_gallery.py:58-65 | Sanitising twice equals sanitising once if and only if the title has no whitespace |
| Slug.SanitizeNotIdempotent | scripts/create_gallery.py:29 | "my-plot" becomes "myplot", so sanitising "My Plot" twice changes it |
| MarkerSyntax.WordLengthSpec | scripts/create_gallery.py:33 | The captured `\w+` is the longest run of word characters at the start of the rest of the line: all before the cut are word characters, the one at the cut is not |
| MarkerSyntax.MatchMarkerSpec | scripts/create_gallery.py:33 | The matcher returns a category if and only if the source starts with `# Gallery, ` plus that non-empty word, and then ends or continues with a line feed |
| MarkerSyntax.MarkerLineMatches | scripts/create_gallery.py:33 | A marker line with any non-empty word category gives that category, alone or followed by a line feed and any code |
| MarkerSyntax.MarkerTrailingText | scripts/create_gallery.py:33 | Any character after the word that is neither a word character nor a line feed (trailing text, a carriage return) means no match |
| MarkerSyntax.MarkerOnlyOnFirstLine | scripts/create_gallery.py:154 | If the first line is not a marker, no later line makes the cell a marker |
| MarkerSyntax.HeadingIsNoMarker | scripts/create_gallery.py:154 | A source starting with a level-3 heading is never a marker |
| Titles.SplitTerminated | scripts/create_gallery.py:126 | Splitting lines that each end in a line feed gives back exactly those lines |
| Titles.SplitFirstLine | scripts/create_gallery.py:126 | A line ended by a line feed is split off as the first line, and the rest is split on its own |
| Titles.Strip | scripts/create_gallery.py:131 | `strip("# ")` cuts only `#`/space characters from the two ends, and the result neither starts nor ends with one |
| Titles.FirstLevel3 | scripts/create_gallery.py:132-133 | Finds the first line starting with `### `: no earlier line does |
| Titles.LastLevel1 | scripts/create_gallery.py:130-131 | Finds the last line starting with `# `: no later line does |
| Titles.ScanTitleSpec | scripts/create_gallery.py:128-136 | The title is the stripped first level-3 line visited; failing that, the stripped last level-1 line; failing that, "" |
| Titles.Level1DoesNotStop | scripts/create_gallery.py:129-133 | Lines before a level-3 heading decide nothing, whatever `# ` headings they hold |
| Titles.NearestLevel3Wins | scripts/create_gallery.py:125-133 | A level-3 heading in the cell nearest the marker is the title, whatever the earlier cells hold |
| Titles.Level3Title | scripts/create_gallery.py:121-136 | A lone `### <text>` markdown cell gives `<text>` as the title |
| Notebooks.RelPath | scripts/create_gallery.py:170 | The relative path ends with the notebook's file name |
| Notebooks.Stem | scripts/create_gallery.py:147 | The stem plus `.ipynb` is the file name; the name `.ipynb` alone is its own stem |
| Notebooks.PathLeTotal | scripts/create_gallery.py:205-210 | Any two notebook paths are ordered one way or the other |
| Notebooks.PathLeTransitive | scripts/create_gallery.py:205-210 | The path order is transitive |
| Notebooks.FilterSources | scripts/create_gallery.py:208-209 | Exactly the `*.ipynb` files not ending `.out.ipynb` are kept, each as often as it is listed |
| Notebooks.Insert | scripts/create_gallery.py:205 | Inserting into a sorted list gives a sorted list with one more occurrence of the new file |
| Notebooks.Sort | scripts/create_gallery.py:205 | The sorted list is ordered and is a permutation of the input |
| Notebooks.SelectNotebooksSpec | scripts/create_gallery.py:205-210 | The scanned notebooks are exactly the qualifying files, each as often as listed, in path order |
| Extraction.DisplayMarkersMembership | scripts/create_gallery.py:155-156 | An entry is in a marker cell's list exactly when it pairs a `display_data` output of that cell with the cell's category and preceding cells; how many entries there are and their order is `Extraction.DisplayMarkersAppend` |
| Extraction.CellMarkersMembership | scripts/create_gallery.py:151-157 | A cell's entries are exactly its `display_data` outputs, paired with the cells before it, if its source matches the marker |
| Extraction.MarkersMembership | scripts/create_gallery.py:151-157 | An entry is produced if and only if it comes from a (marker cell, `display_data` output) pair, with `nb_cells[:ii]` as its preceding cells |
| Extraction.MarkersSound | scripts/create_gallery.py:151-157 | Every entry comes from some (marker cell, `display_data` output) pair |
| Extraction.MarkersComplete | scripts/create_gallery.py:151-157 | Every (marker cell, `display_data` output) pair gives an entry |
| Extraction.MarkersPrefix | scripts/create_gallery.py:151-157 | Entries come in cell order: the entries of a notebook's first cells are a prefix of the entries of the whole notebook |
| Extraction.DisplayMarkersAppend | scripts/create_gallery.py:155-156 | Within a marker cell entries come in output order: one more output adds at most one entry, at the end, and only when it is a display output |
| Extraction.TargetSpec | scripts/create_gallery.py:170-175 | The target starts with `/` and ends with `#<anchor>`; it lies under `/reference/` exactly for notebooks in the examples root. An example notebook's target starts with `/reference/<stem>.qmd#`, a tutorial's with `/tutorials/<file name>#`, the `.ipynb` extension kept. Page, `#` and anchor make up the whole target, as its length shows |
| Extraction.TargetAnchorRoundTrip | scripts/create_gallery.py:179-180 | The anchor can be read back from the target as the text after its last `#` |
| Extraction.MakeImageSpec | scripts/create_gallery.py:177-185 | An entry has its marker's category and the title found above the marker cell; its target ends with `#` plus the title's slug, starts with `/reference/<stem>.qmd#` for an example notebook and with `/tutorials/<file name>#` for a tutorial; its thumbnail starts with `thumbnails/<stem>-` and ends with `-` plus that slug and `.png`. The lengths show that nothing else lies in either string |
| Extraction.ThumbnailPath | scripts/create_gallery.py:181-182 | The thumbnail path starts with `thumbnails/<stem>-` and ends with `-<anchor>.png`, and its length shows that nothing lies between them |
| Extraction.ThumbnailAnchorRoundTrip | scripts/create_gallery.py:181 | Given the stem, the anchor is read back as exactly the text between `thumbnails/<stem>-` and `.png` |
| Extraction.EntryStepsShape | scripts/create_gallery.py:177-185 | One entry per pair, in pair order, each with its thumbnail written at the path the entry shows; an undecodable payload ends the notebook with an abort naming it |
| Extraction.OneMarkerAfterHeading | scripts/create_gallery.py:151-157 | A heading cell followed by a marker cell with one display output gives exactly one pair, with the heading cell as its preceding cells |
| Extraction.EndToEndExample | scripts/create_gallery.py:139-185 | `### My Plot` followed by a marker cell of any word category, with any code after the marker line and one display output, gives one entry: title "My Plot", thumbnail `thumbnails/<stem>-my-plot.png`, target `/reference/<stem>.qmd#my-plot` |
| Extraction.NoPairsNoMarkers | scripts/create_gallery.py:151-157 | A notebook with no (marker, display output) pair gives no entries |
| Extraction.ImageInLaterCellIgnored | scripts/create_gallery.py:151-157 | A marker cell without outputs gives nothing, even when a later cell shows an image |
| Sections.DistinctValuesSpec | scripts/create_gallery.py:214-216 | The section keys hold each title of the table exactly once |
| Sections.SectionTitlesListed | scripts/create_gallery.py:42-55 | The section order is the ten titles in order of first appearance in the table |
| Sections.LookupSpec | scripts/create_gallery.py:219-223 | A lookup fails exactly for a tag outside the table, and otherwise gives a title the table pairs with the tag |
| Sections.ClassifyTable | scripts/create_gallery.py:42-55 | Each of the twelve tags maps to its own row's title; any other tag maps to nothing |
| Sections.ClassifiedTitleListed | scripts/create_gallery.py:214-225 | Every title a tag maps to is one of the section keys, so the append never misses |
| Sections.InSectionMembership | scripts/create_gallery.py:225 | A section holds exactly the images whose tag maps to its title |
| Sections.InSectionAppend | scripts/create_gallery.py:225 | Within a section, images keep encounter order |
| Sections.Report | scripts/create_gallery.py:194-198 | A rejected step is reported as "Could not process" exactly when it is a notebook failure |
| Sections.FirstRejectedSpec | scripts/create_gallery.py:218-223 | Every step before the first rejected one is an image with a known tag, and the step at that index is rejected |
| Sections.GroupSteps | scripts/create_gallery.py:218-225 | The consuming loop stops at the first rejected step with its failure, and has written the thumbnails so far; otherwise every section holds its images in order |
| Sections.EmitSections | scripts/create_gallery.py:227-237 | The rendering loop gives a header and a grid per non-empty section, in section order |
| Sections.RenderGalleryItems | scripts/create_gallery.py:201-239 | Over the selected notebooks' steps: with no rejected step, the section blocks of all images and every thumbnail; otherwise the first rejected step's failure, with the thumbnails written up to and including it |
| Sections.RenderSteps | scripts/create_gallery.py:214-239 | Grouping then rendering gives the section blocks in title order, or the report of the first rejected step, with the thumbnails written up to it |
| Sections.SectionBlocksShape | scripts/create_gallery.py:228-237 | The output is twice as long as the number of non-empty sections. Each is a header followed by its non-empty grid, in title order |
| Sections.NoImagesNoBlocks | scripts/create_gallery.py:229-230 | Sections without images contribute nothing |
| Sections.GridsArePermutation | scripts/create_gallery.py:214-237 | When every tag is known, the grids together hold exactly the images: a permutation, none lost or repeated |
| Sections.PointsBeforeBars | scripts/create_gallery.py:40-55 | A bar chart met before a scatter plot is still shown after it: scatter section, then bar section |
| Sections.FailureHidesLaterNotebooks | scripts/create_gallery.py:194-198 | After a failure the later notebooks are never visited: the steps up to the failure are the same whatever follows |
| Sections.NotebookAbortIsLast | scripts/create_gallery.py:195-198 | In one notebook's steps only the last can be an abort, and it names that notebook |
| HtmlCleaner.RemoveIdValue | scripts/html_cleaner.py:53-55 | After one pass no element carries the value as its id; an element that did not carry it is untouched, and one that did loses its id and nothing else |
| HtmlCleaner.RemoveIdsSpec | scripts/html_cleaner.py:51-55 | After all passes an element's id is gone exactly when its value is listed; nothing else changes |
| HtmlCleaner.KeptClassesMembership | scripts/html_cleaner.py:62-64 | A class name is kept exactly when it was present and is not listed |
| HtmlCleaner.KeptClassesAppend | scripts/html_cleaner.py:62-64 | Filtering keeps relative order: filtering two runs is filtering each |
| HtmlCleaner.KeptClassesTwice | scripts/html_cleaner.py:62-64 | Filtering twice with the same list is filtering once |
| HtmlCleaner.RemoveClasses | scripts/html_cleaner.py:58-71 | A class attribute disappears exactly when it was absent or held only listed names; when it stays it holds the unlisted names in order; tag name, id and other attributes never change |
| HtmlCleaner.RemoveAttributesSpec | scripts/html_cleaner.py:51-71 | Per element: the id goes exactly when listed. When a class list is given, the classes are filtered and an emptied attribute is deleted; otherwise they stay. The tag name and other attributes never change |
| HtmlCleaner.NothingGivenNoChange | scripts/html_cleaner.py:51-58 | With both lists absent or empty, the document is unchanged |
| HtmlCleaner.RemoveAttributesIdempotent | scripts/html_cleaner.py:32-73 | Cleaning twice with the same lists is cleaning once |
| HtmlCleaner.SplitCommas | scripts/html_cleaner.py:81 | `split(",")` gives at least one piece, and no piece contains a comma |
| HtmlCleaner.JoinSplit | scripts/html_cleaner.py:81 | Joining the pieces with commas gives the flag text back |
| HtmlCleaner.SplitJoin | scripts/html_cleaner.py:81 | Splitting comma-free pieces joined by commas gives the pieces back |
| HtmlCleaner.ParseListFlag | scripts/html_cleaner.py:81-82 | An absent or empty flag is the empty list; otherwise the pieces join back to the flag |
| HtmlCleaner.CleanHtmlSpec | scripts/html_cleaner.py:76-88 | From the command line, an id goes exactly when it is one of the `--ids` pieces. When a `--classes` list is given, the class attribute stays exactly when it holds a name not in the list, and then holds exactly the present names not in it; with no list it is unchanged, even when empty |
| HtmlCleaner.IdsFlagExample | scripts/html_cleaner.py:81 | `--ids a,b` is the list `a`, `b` |

## Left out

- Thumbnail creation: base64 decoding, PIL resizing and saving (`create_thumbnail`). A thumbnail is an opaque `Thumbnail(path, png)` effect. Whether the payload decodes is an input flag on each output; a payload that does not decode aborts its notebook.
- A `display_data` output without `image/png` raises a `KeyError`. The model assumes every display output carries a payload, because this is a library-shaped failure, not stated behaviour.
- A markdown or raw cell whose source starts with a marker line: the code reads its `outputs`, which such cells lack, so the notebook fails with "Could not process". The model does not raise here. It reads the cell's output list like any other, and a cell that came from a notebook file holds no outputs unless it is a code cell, so it yields nothing. The model does not enforce that rule on the `Cell` type, because it is a property of the file format.
- Notebook reading (`nbformat.read`) is replaced by parsed cells. A file the reader rejects is `Malformed` and aborts its notebook.
- File-system paths, `glob`, `relative_to` and `is_relative_to` are replaced by a root (examples or tutorials) and a file name per listed file. The absolute path in the "Could not process" message is given as the path relative to the documentation root.
- Braces in a notebook name would be read by `str.format` in the target template. The model treats names as plain text.
- Rendering: `GalleryImage.__str__`, the `Header`/`Div` attributes, `Meta`, `render_gallery_page` and `write_text`. Blocks are the abstract `Header(title)` and `Grid(images)`.
- Unicode: `\w`, `\s`, `str.lower` and `str.splitlines` are modelled on ASCII code points only.
- The HTML parser and serialiser, `argparse`, stdin and stdout. A document is its element list in document order.
- scripts/patch_api_artefacts.py: a file read, two fixed `str.replace` calls and a write.
- Chars.Lower: only ASCII letters are lower-cased, because the model has no Unicode case tables.

=== FILE: chars.dfy ===
/**
  Character classes and string helpers at the ASCII level.

  Python's regular expressions on `str` use Unicode classes; this model keeps
  only their ASCII members: a word character (`\w`) is a letter, a digit or
  `_`, and whitespace (`\s`) is every ASCII code point for which
  `str.isspace()` holds.
*/
module Chars {

  /** `\w` restricted to ASCII. */
  predicate IsWordChar(c: char) {
    ('a' <= c <= 'z') || ('A' <= c <= 'Z') || ('0' <= c <= '9') || c == '_'
  }

  /** `\s` restricted to ASCII: tab, line feed, vertical tab, form feed,
      carriage return, the four separators 0x1c-0x1f, and space. */
  predicate IsSpace(c: char) {
    var n := c as int;
    (9 <= n <= 13) || (28 <= n <= 31) || n == 32
  }

  /** `str.lower` on one character, ASCII letters only. */
  function ToLower(c: char): (r: char)
    ensures !('A' <= r <= 'Z')
    ensures IsWordChar(r) <==> IsWordChar(c)
    ensures IsSpace(r) <==> IsSpace(c)
    ensures !('A' <= c <= 'Z') ==> r == c
  {
    if 'A' <= c <= 'Z' then (c as int - 'A' as int + 'a' as int) as char else c
  }

  /** `str.lower` on a string. */
  function Lower(s: string): (r: string)
    ensures |r| == |s|
    ensures forall i :: 0 <= i < |s| ==> r[i] == ToLower(s[i])
  {
    seq(|s|, i requires 0 <= i < |s| => ToLower(s[i]))
  }

  lemma LowerAppend(a: string, b: string)
    ensures Lower(a + b) == Lower(a) + Lower(b)
  {
  }

  /** The word characters of `s`, in order. */
  function WordChars(s: string): (r: string)
    ensures |r| <= |s|
  {
    if s == [] then []
    else (if IsWordChar(s[0]) then [s[0]] else []) + WordChars(s[1..])
  }

  /** A character is kept exactly when it is a word character of `s`. */
  lemma {:induction false} WordCharsMembership(s: string)
    ensures forall c :: c in WordChars(s) <==> c in s && IsWordChar(c)
  {
    if s != [] {
      WordCharsMembership(s[1..]);
      assert s == [s[0]] + s[1..];
    }
  }

  lemma WordCharsAppend(a: string, b: string)
    ensures WordChars(a + b) == WordChars(a) + WordChars(b)
  {
    if a == [] {
      assert a + b == b;
    } else {
      var h := if IsWordChar(a[0]) then [a[0]] else [];
      var x, y := WordChars(a[1..]), WordChars(b);
      assert (a + b)[0] == a[0];
      assert (a + b)[1..] == a[1..] + b;
      WordCharsAppend(a[1..], b);
      assert WordChars(a + b) == h + (x + y);
      assert WordChars(a) == h + x;
      assert h + (x + y) == (h + x) + y;
    }
  }

  /** `s.endswith(suffix)`. */
  predicate EndsWith(s: string, suffix: string) {
    |suffix| <= |s| && s[|s| - |suffix|..] == suffix
  }

  /** Python's `<=` on strings: lexicographic by code point. */
  predicate LexLe(a: string, b: string)
    decreases |a|
  {
    if a == [] then true
    else if b == [] then false
    else if a[0] != b[0] then a[0] < b[0]
    else LexLe(a[1..], b[1..])
  }

  lemma {:induction false} LexLeTotal(a: string, b: string)
    ensures LexLe(a, b) || LexLe(b, a)
    decreases |a|
  {
    if a != [] && b != [] && a[0] == b[0] {
      LexLeTotal(a[1..], b[1..]);
    }
  }

  lemma {:induction false} LexLeTransitive(a: string, b: string, c: string)
    requires LexLe(a, b) && LexLe(b, c)
    ensures LexLe(a, c)
    decreases |a|
  {
    if a != [] && b != [] && c != [] && a[0] == b[0] && b[0] == c[0] {
      LexLeTransitive(a[1..], b[1..], c[1..]);
    }
  }
}

=== FILE: extraction.dfy ===
/**
  Per-notebook extraction, `get_gallery_images_in_notebook`: pair each marker
  cell with its `display_data` outputs, then give each pair a title, an anchor,
  a link target and a thumbnail path.

  The generator is lazy and its consumer checks each image before asking for
  the next, so a notebook is modelled as the sequence of steps it produces:
  an `Emit` per image (its thumbnail already written) and, if processing
  fails, a final `Abort` carrying the notebook's path.
*/
module Extraction {
  import opened Chars
  import opened Results
  import opened Notebooks
  import opened MarkerSyntax
  import opened Titles
  import opened Slug

  /** A marker cell paired with one of its display outputs, with every cell
      before the marker cell. */
  datatype Marker = Marker(preceding: seq<Cell>, output: Output, category: string)

  /** A gallery entry. `thumbnail` is relative to the gallery directory. */
  datatype GalleryImage = GalleryImage(thumbnail: string, title: string, target: string, category: string)

  /** The opaque effect of `create_thumbnail`: a file written at `path`
      (relative to the gallery directory) from the payload `png`. */
  datatype Thumbnail = Thumbnail(path: string, png: string)

  datatype Step = Emit(image: GalleryImage, thumbnail: Thumbnail) | Abort(path: string)

  /** The markers of one marker cell: one per display output, in output order. */
  function DisplayMarkers(preceding: seq<Cell>, outputs: seq<Output>, category: string): seq<Marker> {
    if outputs == [] then []
    else
      (if outputs[0].kind == DisplayData then [Marker(preceding, outputs[0], category)] else [])
      + DisplayMarkers(preceding, outputs[1..], category)
  }

  /** The entries a cell yields after the cells `preceding` it: none unless
      its source starts with a marker line. */
  function DisplayMarkersOf(preceding: seq<Cell>, c: Cell): seq<Marker> {
    match MatchMarker(c.source)
    case None => []
    case Some(category) => DisplayMarkers(preceding, c.outputs, category)
  }

  /** The `gallery_output_nodes` generator, in cell order then output order:
      the entries of all cells but the last, then those of the last. */
  function Markers(cells: seq<Cell>): seq<Marker>
    decreases |cells|
  {
    if cells == [] then []
    else
      var n := |cells| - 1;
      Markers(cells[..n]) + DisplayMarkersOf(cells[..n], cells[n])
  }

  /** `m` comes from display output `j` of marker cell `i`. */
  predicate FromPair(cells: seq<Cell>, i: int, j: int, m: Marker) {
    && 0 <= i < |cells|
    && 0 <= j < |cells[i].outputs|
    && cells[i].outputs[j].kind == DisplayData
    && MatchMarker(cells[i].source) == Some(m.category)
    && m.preceding == cells[..i]
    && m.output == cells[i].outputs[j]
  }

  /** An entry is in a marker cell's list exactly when it pairs one of its
      display outputs with the cells before it and the marker's category;
      other outputs give nothing. */
  lemma {:induction false} DisplayMarkersMembership(preceding: seq<Cell>, outputs: seq<Output>, category: string, m: Marker)
    ensures m in DisplayMarkers(preceding, outputs, category) <==>
      exists j :: 0 <= j < |outputs| && outputs[j].kind == DisplayData && m == Marker(preceding, outputs[j], category)
  {
    if outputs != [] {
      DisplayMarkersMembership(preceding, outputs[1..], category, m);
      if exists j :: 0 <= j < |outputs| && outputs[j].kind == DisplayData && m == Marker(preceding, outputs[j], category) {
        var j :| 0 <= j < |outputs| && outputs[j].kind == DisplayData && m == Marker(preceding, outputs[j], category);
        if j > 0 {
          assert outputs[1..][j - 1] == outputs[j];
        }
      }
      if exists j :: 0 <= j < |outputs[1..]| && outputs[1..][j].kind == DisplayData && m == Marker(preceding, outputs[1..][j], category) {
        var j :| 0 <= j < |outputs[1..]| && outputs[1..][j].kind == DisplayData && m == Marker(preceding, outputs[1..][j], category);
        assert outputs[j + 1] == outputs[1..][j];
      }
    }
  }

  /** The entries of cell `k` are exactly its pairs. */
  lemma CellMarkersMembership(cells: seq<Cell>, k: nat, m: Marker)
    requires k < |cells|
    ensures m in DisplayMarkersOf(cells[..k], cells[k]) <==> exists j :: FromPair(cells, k, j, m)
  {
    match MatchMarker(cells[k].source)
    case None =>
    case Some(category) =>
      DisplayMarkersMembership(cells[..k], cells[k].outputs, category, m);
      if exists j :: FromPair(cells, k, j, m) {
        var j :| FromPair(cells, k, j, m);
        assert m == Marker(cells[..k], cells[k].outputs[j], category);
      }
      if m in DisplayMarkersOf(cells[..k], cells[k]) {
        var j :| 0 <= j < |cells[k].outputs| && cells[k].outputs[j].kind == DisplayData
                 && m == Marker(cells[..k], cells[k].outputs[j], category);
        assert FromPair(cells, k, j, m);
      }
  }

  /** A pair of a prefix of the notebook is a pair of the notebook. */
  lemma FromPairPrefix(cells: seq<Cell>, n: nat, i: int, j: int, m: Marker)
    requires 0 <= i < n <= |cells|
    ensures FromPair(cells[..n], i, j, m) <==> FromPair(cells, i, j, m)
  {
    assert cells[..n][i] == cells[i];
    assert cells[..n][..i] == cells[..i];
  }

  /** Every entry comes from a pair. */
  lemma {:induction false} MarkersSound(cells: seq<Cell>, m: Marker)
    requires m in Markers(cells)
    ensures exists i, j :: FromPair(cells, i, j, m)
    decreases |cells|
  {
    var n := |cells| - 1;
    assert Markers(cells) == Markers(cells[..n]) + DisplayMarkersOf(cells[..n], cells[n]);
    if m in Markers(cells[..n]) {
      MarkersSound(cells[..n], m);
      var i, j :| FromPair(cells[..n], i, j, m);
      FromPairPrefix(cells, n, i, j, m);
    } else {
      CellMarkersMembership(cells, n, m);
    }
  }

  /** Every pair gives an entry. */
  lemma {:induction false} MarkersComplete(cells: seq<Cell>, i: int, j: int, m: Marker)
    requires FromPair(cells, i, j, m)
    ensures m in Markers(cells)
    decreases |cells|
  {
    var n := |cells| - 1;
    var earlier, last := Markers(cells[..n]), DisplayMarkersOf(cells[..n], cells[n]);
    assert Markers(cells) == earlier + last;
    if i == n {
      CellMarkersMembership(cells, n, m);
      assert m in last;
    } else {
      FromPairPrefix(cells, n, i, j, m);
      MarkersComplete(cells[..n], i, j, m);
      assert m in earlier;
    }
  }

  /** Pairing: an entry is produced exactly for a display output of a cell
      whose first line is a marker, and it carries the marker's category, that
      output, and every cell before the marker cell. */
  lemma MarkersMembership(cells: seq<Cell>, m: Marker)
    ensures m in Markers(cells) <==> exists i, j :: FromPair(cells, i, j, m)
  {
    if m in Markers(cells) {
      MarkersSound(cells, m);
    }
    if exists i, j :: FromPair(cells, i, j, m) {
      var i, j :| FromPair(cells, i, j, m);
      MarkersComplete(cells, i, j, m);
    }
  }

  /** Appending a cell leaves the entries of earlier cells as they were and
      adds the new cell's entries after them. */
  lemma MarkersAppendCell(cells: seq<Cell>, c: Cell)
    ensures Markers(cells + [c]) == Markers(cells) + DisplayMarkersOf(cells, c)
  {
    assert (cells + [c])[..|cells|] == cells;
    assert (cells + [c])[|cells|] == c;
  }

  /** Order across cells: the entries of a notebook's first cells are a
      prefix of the entries of the whole notebook, so the generator never
      reorders or drops the entries of earlier cells when later cells follow. */
  lemma MarkersPrefix(cells: seq<Cell>, more: seq<Cell>)
    ensures Markers(cells) <= Markers(cells + more)
  {
    assert (cells + more)[..|cells|] == cells;
    MarkersOfPrefix(cells + more, |cells|);
  }

  /** The entries of the first `k` cells are a prefix of all entries. */
  lemma {:induction false} MarkersOfPrefix(cells: seq<Cell>, k: nat)
    requires k <= |cells|
    ensures Markers(cells[..k]) <= Markers(cells)
    decreases |cells|
  {
    if k == |cells| {
      assert cells[..k] == cells;
    } else {
      var front := cells[..|cells| - 1];
      assert front[..k] == cells[..k];
      MarkersOfPrefix(front, k);
      PrefixExtends(Markers(cells[..k]), Markers(front), DisplayMarkersOf(front, cells[|cells| - 1]));
    }
  }

  /** A prefix of a sequence stays a prefix once the sequence grows. */
  lemma PrefixExtends<T>(x: seq<T>, a: seq<T>, d: seq<T>)
    requires x <= a
    ensures x <= a + d
  {
    assert (a + d)[..|x|] == a[..|x|];
  }

  /** Output order within a marker cell: one entry per display output,
      appended in turn; other outputs yield nothing. */
  lemma {:induction false} DisplayMarkersAppend(preceding: seq<Cell>, outputs: seq<Output>, o: Output, category: string)
    ensures DisplayMarkers(preceding, outputs + [o], category) ==
      DisplayMarkers(preceding, outputs, category)
      + (if o.kind == DisplayData then [Marker(preceding, o, category)] else [])
  {
    var tail := if o.kind == DisplayData then [Marker(preceding, o, category)] else [];
    if outputs == [] {
      assert outputs + [o] == [o];
      assert DisplayMarkers(preceding, [o], category) == tail + [];
    } else {
      var head := if outputs[0].kind == DisplayData then [Marker(preceding, outputs[0], category)] else [];
      var rest := DisplayMarkers(preceding, outputs[1..], category);
      assert (outputs + [o])[0] == outputs[0];
      assert (outputs + [o])[1..] == outputs[1..] + [o];
      DisplayMarkersAppend(preceding, outputs[1..], o, category);
      assert DisplayMarkers(preceding, outputs + [o], category) == head + (rest + tail);
      assert head + (rest + tail) == (head + rest) + tail;
    }
  }

  /** The link target: the reference page for notebooks under the examples
      root, the notebook's own path (extension kept) otherwise. */
  function Target(f: NotebookFile, anchor: string): string
    requires EndsWith(f.name, NotebookSuffix)
  {
    match f.root
    case Examples => "/reference/" + Stem(f.name) + ".qmd" + "#" + anchor
    case Tutorials => "/" + RelPath(f) + "#" + anchor
  }

  /** A concatenation starts with its first part and ends with its second. */
  lemma ConcatParts(a: string, b: string)
    ensures a <= a + b && EndsWith(a + b, b)
  {
    assert (a + b)[..|a|] == a;
    assert (a + b)[|a|..] == b;
  }

  /** A link `<page>#<anchor>` starts with its page's prefix and ends with
      `#<anchor>`. */
  lemma LinkParts(root: string, rest: string, anchor: string)
    ensures var t := root + rest + "#" + anchor;
      && root <= t && root + rest + "#" <= t && EndsWith(t, "#" + anchor)
      && |t| == |root + rest + "#"| + |anchor|
  {
    var t := root + rest + "#" + anchor;
    ConcatParts(root + rest + "#", anchor);
    assert t == root + (rest + "#" + anchor);
    ConcatParts(root, rest + "#" + anchor);
    assert t == (root + rest) + ("#" + anchor);
    ConcatParts(root + rest, "#" + anchor);
  }

  lemma ExampleTarget(f: NotebookFile, anchor: string)
    requires EndsWith(f.name, NotebookSuffix) && f.root == Examples
    ensures var t := Target(f, anchor);
      && "/reference/" + Stem(f.name) + ".qmd#" <= t
      && |t| == |"/reference/" + Stem(f.name) + ".qmd#"| + |anchor|
      && EndsWith(t, "#" + anchor)
      && "/reference/" <= t
  {
    var stem := Stem(f.name);
    var rest := stem + ".qmd";
    assert Target(f, anchor) == "/reference/" + rest + "#" + anchor;
    LinkParts("/reference/", rest, anchor);
    assert "/reference/" + rest + "#" == "/reference/" + stem + ".qmd#";
  }

  lemma TutorialTarget(f: NotebookFile, anchor: string)
    requires EndsWith(f.name, NotebookSuffix) && f.root == Tutorials
    ensures var t := Target(f, anchor);
      && "/tutorials/" + f.name + "#" <= t
      && |t| == |"/tutorials/" + f.name + "#"| + |anchor|
      && EndsWith(t, "#" + anchor)
      && !("/reference/" <= t)
  {
    var t := Target(f, anchor);
    assert RelPath(f) == "tutorials" + "/" + f.name;
    assert "/" + RelPath(f) == "/tutorials/" + f.name;
    assert t == "/tutorials/" + f.name + "#" + anchor;
    LinkParts("/tutorials/", f.name, anchor);
    assert t[1] == 't';
  }

  /** Every target is site-absolute and ends with `#<anchor>`; it lies under
      `/reference/` exactly for notebooks in the examples root. An example
      notebook links to the reference page named after its stem; a tutorial
      links to its own file under `tutorials/`, `.ipynb` extension kept.
      Page, `#` and anchor make up the whole target: nothing lies between. */
  lemma TargetSpec(f: NotebookFile, anchor: string)
    requires EndsWith(f.name, NotebookSuffix)
    ensures var t := Target(f, anchor);
      && t != [] && t[0] == '/'
      && EndsWith(t, "#" + anchor)
      && (f.root == Examples <==> "/reference/" <= t)
      && (f.root == Examples ==> "/reference/" + Stem(f.name) + ".qmd#" <= t)
      && (f.root == Tutorials ==> "/tutorials/" + f.name + "#" <= t)
      && (f.root == Examples ==> |t| == |"/reference/" + Stem(f.name) + ".qmd#"| + |anchor|)
      && (f.root == Tutorials ==> |t| == |"/tutorials/" + f.name + "#"| + |anchor|)
  {
    match f.root
    case Examples => ExampleTarget(f, anchor);
    case Tutorials => TutorialTarget(f, anchor);
  }

  /** The text after the last `#`, or the whole text if there is none. */
  function AfterLastHash(s: string): string {
    if s == [] then []
    else if s[|s| - 1] == '#' then []
    else AfterLastHash(s[..|s| - 1]) + [s[|s| - 1]]
  }

  lemma {:induction false} AfterLastHashOf(prefix: string, anchor: string)
    requires '#' !in anchor
    ensures AfterLastHash(prefix + "#" + anchor) == anchor
  {
    var s := prefix + "#" + anchor;
    if anchor != [] {
      var a' := anchor[..|anchor| - 1];
      assert s[..|s| - 1] == prefix + "#" + a';
      AfterLastHashOf(prefix, a');
      assert anchor == a' + [anchor[|anchor| - 1]];
    } else {
      assert s == prefix + "#";
    }
  }

  /** The anchor can be read back from the target: it is what follows the
      last `#`, because a sanitised anchor holds no `#`. */
  lemma TargetAnchorRoundTrip(f: NotebookFile, title: string)
    requires EndsWith(f.name, NotebookSuffix)
    ensures AfterLastHash(Target(f, Sanitize(title))) == Sanitize(title)
  {
    var anchor := Sanitize(title);
    assert '#' !in anchor;
    match f.root
    case Examples =>
      AfterLastHashOf("/reference/" + Stem(f.name) + ".qmd", anchor);
    case Tutorials =>
      AfterLastHashOf("/" + RelPath(f), anchor);
  }

  /** The thumbnail path, relative to the gallery directory. */
  function ThumbnailPath(stem: string, anchor: string): (p: string)
    ensures "thumbnails/" <= p && EndsWith(p, ".png")
    ensures EndsWith(p, "-" + anchor + ".png")
    ensures "thumbnails/" + stem + "-" <= p
    ensures |p| == |"thumbnails/" + stem + "-"| + |anchor + ".png"|
  {
    var p := "thumbnails/" + stem + "-" + anchor + ".png";
    assert p == ("thumbnails/" + stem + "-" + anchor) + ".png";
    assert p == ("thumbnails/" + stem) + ("-" + anchor + ".png");
    assert p == ("thumbnails/" + stem + "-") + (anchor + ".png");
    p
  }

  /** Given the notebook's stem, the anchor can be read back off the
      thumbnail name: it is what lies between `thumbnails/<stem>-` and `.png`. */
  lemma ThumbnailAnchorRoundTrip(stem: string, anchor: string)
    ensures var p := ThumbnailPath(stem, anchor);
      p[|"thumbnails/" + stem + "-"|..|p| - |".png"|] == anchor
  {
    var head := "thumbnails/" + stem + "-";
    var p := ThumbnailPath(stem, anchor);
    assert p == head + (anchor + ".png");
    assert p[|head|..] == anchor + ".png";
    assert (anchor + ".png")[..|anchor|] == anchor;
  }

  /** The gallery entry for one marker of notebook `f`. */
  function MakeImage(f: NotebookFile, m: Marker): GalleryImage
    requires EndsWith(f.name, NotebookSuffix)
  {
    var title := GalleryImageTitle(m.preceding);
    var anchor := Sanitize(title);
    GalleryImage(ThumbnailPath(Stem(f.name), anchor), title, Target(f, anchor), m.category)
  }

  /** An entry carries the marker's category and the title found above the
      marker cell, and both its link target and its thumbnail name end with
      the slug of that title. */
  lemma MakeImageSpec(f: NotebookFile, m: Marker)
    requires EndsWith(f.name, NotebookSuffix)
    ensures var img := MakeImage(f, m);
      && img.category == m.category
      && img.title == GalleryImageTitle(m.preceding)
      && EndsWith(img.target, "#" + Sanitize(img.title))
      && (f.root == Examples <==> "/reference/" <= img.target)
      && (f.root == Examples ==> "/reference/" + Stem(f.name) + ".qmd#" <= img.target)
      && (f.root == Tutorials ==> "/tutorials/" + f.name + "#" <= img.target)
      && "thumbnails/" + Stem(f.name) + "-" <= img.thumbnail
      && "thumbnails/" <= img.thumbnail && EndsWith(img.thumbnail, "-" + Sanitize(img.title) + ".png")
      && (f.root == Examples ==> |img.target| == |"/reference/" + Stem(f.name) + ".qmd#"| + |Sanitize(img.title)|)
      && (f.root == Tutorials ==> |img.target| == |"/tutorials/" + f.name + "#"| + |Sanitize(img.title)|)
      && |img.thumbnail| == |"thumbnails/" + Stem(f.name) + "-"| + |Sanitize(img.title) + ".png"|
  {
    TargetSpec(f, Sanitize(GalleryImageTitle(m.preceding)));
  }

  /** The step for a marker whose payload decodes: its thumbnail is written,
      then its image is produced. */
  function EmitStep(f: NotebookFile, m: Marker): Step
    requires EndsWith(f.name, NotebookSuffix)
  {
    var img := MakeImage(f, m);
    Emit(img, Thumbnail(img.thumbnail, m.output.png))
  }

  /** The steps for the markers `ms` of `f`: an image per marker, until a
      payload fails to decode. */
  function EntrySteps(f: NotebookFile, ms: seq<Marker>): seq<Step>
    requires EndsWith(f.name, NotebookSuffix)
  {
    if ms == [] then []
    else if !ms[0].output.decodable then [Abort(RelPath(f))]
    else [EmitStep(f, ms[0])] + EntrySteps(f, ms[1..])
  }

  /** The steps of one notebook: an unreadable file aborts at once. */
  function NotebookSteps(f: NotebookFile): seq<Step>
    requires EndsWith(f.name, NotebookSuffix)
  {
    match f.content
    case Malformed => [Abort(RelPath(f))]
    case Parsed(cells) => EntrySteps(f, Markers(cells))
  }

  /** `get_gallery_images`: the notebooks' steps one after another. */
  function GallerySteps(fs: seq<NotebookFile>): seq<Step>
    requires forall i :: 0 <= i < |fs| ==> EndsWith(fs[i].name, NotebookSuffix)
  {
    if fs == [] then [] else NotebookSteps(fs[0]) + GallerySteps(fs[1..])
  }

  /** The index of the first marker whose payload does not decode, or `|ms|`. */
  function FirstUndecodable(ms: seq<Marker>): (k: nat)
    ensures k <= |ms|
    ensures forall i :: 0 <= i < k ==> ms[i].output.decodable
    ensures k < |ms| ==> !ms[k].output.decodable
  {
    if ms == [] || !ms[0].output.decodable then 0 else 1 + FirstUndecodable(ms[1..])
  }

  /** The `i`-th marker before the first undecodable one gives the `i`-th step. */
  lemma {:induction false} EntryStepAt(f: NotebookFile, ms: seq<Marker>, i: nat)
    requires EndsWith(f.name, NotebookSuffix)
    requires i < FirstUndecodable(ms)
    ensures i < |EntrySteps(f, ms)| && EntrySteps(f, ms)[i] == EmitStep(f, ms[i])
    decreases i
  {
    var rest := EntrySteps(f, ms[1..]);
    assert EntrySteps(f, ms) == [EmitStep(f, ms[0])] + rest;
    if i > 0 {
      assert FirstUndecodable(ms) == 1 + FirstUndecodable(ms[1..]);
      EntryStepAt(f, ms[1..], i - 1);
      assert ms[1..][i - 1] == ms[i];
    }
  }

  /** The steps stop right after the first undecodable marker, with an abort. */
  lemma {:induction false} EntryStepsEnd(f: NotebookFile, ms: seq<Marker>)
    requires EndsWith(f.name, NotebookSuffix)
    ensures var steps := EntrySteps(f, ms);
      var k := FirstUndecodable(ms);
      && |steps| == (if k < |ms| then k + 1 else k)
      && (k < |ms| ==> steps[k] == Abort(RelPath(f)))
  {
    if ms != [] && ms[0].output.decodable {
      var rest := EntrySteps(f, ms[1..]);
      var k := FirstUndecodable(ms[1..]);
      assert EntrySteps(f, ms) == [EmitStep(f, ms[0])] + rest;
      assert FirstUndecodable(ms) == k + 1;
      EntryStepsEnd(f, ms[1..]);
      if k < |ms[1..]| {
        assert ([EmitStep(f, ms[0])] + rest)[k + 1] == rest[k];
      }
    }
  }

  /** One image per marker, in marker order, each with its thumbnail written at
      the path the image shows; the first undecodable payload ends the
      notebook with an abort naming its path. */
  lemma EntryStepsShape(f: NotebookFile, ms: seq<Marker>)
    requires EndsWith(f.name, NotebookSuffix)
    ensures var steps := EntrySteps(f, ms);
      var k := FirstUndecodable(ms);
      && |steps| == (if k < |ms| then k + 1 else k)
      && (forall i :: 0 <= i < k ==> steps[i] == EmitStep(f, ms[i]))
      && (k < |ms| ==> steps[k] == Abort(RelPath(f)))
  {
    EntryStepsEnd(f, ms);
    forall i | 0 <= i < FirstUndecodable(ms)
      ensures EntrySteps(f, ms)[i] == EmitStep(f, ms[i])
    {
      EntryStepAt(f, ms, i);
    }
  }

  lemma MyPlotAnchorParts()
    ensures Sanitize("My" + " " + "Plot") == "my-plot"
  {
    SanitizeSpacedWords("My", " ", "Plot");
    assert Lower("My") == "my";
    assert Lower("Plot") == "plot";
  }

  lemma MyPlotAnchor(title: string)
    requires title == "My Plot"
    ensures Sanitize(title) == "my-plot"
  {
    MyPlotAnchorParts();
    assert "My" + " " + "Plot" == title;
  }

  lemma MyPlotThumbnail(stem: string, anchor: string)
    requires anchor == "my-plot"
    ensures ThumbnailPath(stem, anchor) == "thumbnails/" + stem + "-my-plot.png"
  {
    assert "thumbnails/" + stem + "-" + anchor + ".png" == "thumbnails/" + stem + ("-" + anchor + ".png");
  }

  lemma MyPlotTarget(f: NotebookFile, anchor: string)
    requires anchor == "my-plot"
    requires f.root == Examples && EndsWith(f.name, NotebookSuffix)
    ensures Target(f, anchor) == "/reference/" + Stem(f.name) + ".qmd#my-plot"
  {
    assert "/reference/" + Stem(f.name) + ".qmd" + "#" + anchor
        == "/reference/" + Stem(f.name) + (".qmd" + "#" + anchor);
  }

  lemma MyPlotImage(f: NotebookFile, title: string, out: Output, category: string)
    requires title == "My Plot"
    requires f.root == Examples && EndsWith(f.name, NotebookSuffix)
    ensures MakeImage(f, Marker([Cell(Markdown, "### " + title, [])], out, category)) ==
      GalleryImage("thumbnails/" + Stem(f.name) + "-my-plot.png", title,
                   "/reference/" + Stem(f.name) + ".qmd#my-plot", category)
  {
    assert title[0] == 'M' && title[|title| - 1] == 't';
    Level3Title(title);
    MyPlotAnchor(title);
    MyPlotThumbnail(Stem(f.name), "my-plot");
    MyPlotTarget(f, "my-plot");
  }

  /** One marker cell with one display output, after one markdown cell. */
  lemma OneMarkerAfterHeading(md: Cell, source: string, category: string, out: Output)
    requires MatchMarker(md.source) == None
    requires MatchMarker(source) == Some(category)
    requires out.kind == DisplayData
    ensures Markers([md, Cell(Code, source, [out])]) == [Marker([md], out, category)]
  {
    var cc := Cell(Code, source, [out]);
    MarkersAppendCell([], md);
    assert [] + [md] == [md];
    MarkersAppendCell([md], cc);
    assert [md] + [cc] == [md, cc];
    assert DisplayMarkers([md], [out][1..], category) == [];
  }

  /** A markdown cell `### My Plot` followed by a code cell whose first line
      is the marker `# Gallery, <category>` and which has one display output,
      in a notebook under the examples root, gives exactly one image: title
      "My Plot", anchor "my-plot", and that category. */
  lemma EndToEndExample(name: string, png: string, title: string, category: string, more: string)
    requires EndsWith(name, NotebookSuffix)
    requires title == "My Plot"
    requires category != [] && forall i :: 0 <= i < |category| ==> IsWordChar(category[i])
    ensures
      var out := Output(DisplayData, png, true);
      var cells := [Cell(Markdown, "### " + title, []), Cell(Code, MarkerPrefix + category + "\n" + more, [out])];
      var thumb := "thumbnails/" + Stem(name) + "-my-plot.png";
      NotebookSteps(NotebookFile(Examples, name, Parsed(cells))) ==
        [Emit(GalleryImage(thumb, "My Plot", "/reference/" + Stem(name) + ".qmd#my-plot", category),
              Thumbnail(thumb, png))]
  {
    var out := Output(DisplayData, png, true);
    var md := Cell(Markdown, "### " + title, []);
    var code := MarkerPrefix + category + "\n" + more;
    var cells := [md, Cell(Code, code, [out])];
    var f := NotebookFile(Examples, name, Parsed(cells));
    HeadingIsNoMarker(md.source);
    MarkerLineMatches(category, more);
    OneMarkerAfterHeading(md, code, category, out);
    var m := Marker([md], out, category);
    MyPlotImage(f, title, out, category);
    assert EntrySteps(f, [m][1..]) == [];
  }

  /** A notebook without marker pairs yields no entries. */
  lemma NoPairsNoMarkers(cells: seq<Cell>)
    requires forall i, j, m :: !FromPair(cells, i, j, m)
    ensures Markers(cells) == []
  {
    if Markers(cells) != [] {
      MarkersMembership(cells, Markers(cells)[0]);
    }
  }

  /** The image must come from the marker cell itself: a marker cell with no
      outputs followed by another cell's image yields nothing. */
  lemma ImageInLaterCellIgnored(name: string, png: string, marker: string, heading: string)
    requires EndsWith(name, NotebookSuffix)
    requires marker == "# Gallery, points" && heading == "### My Plot"
    ensures
      var cells := [Cell(Code, marker, []), Cell(Markdown, heading, []),
                    Cell(Code, "p", [Output(DisplayData, png, true)])];
      NotebookSteps(NotebookFile(Examples, name, Parsed(cells))) == []
  {
    var cells := [Cell(Code, marker, []), Cell(Markdown, heading, []),
                  Cell(Code, "p", [Output(DisplayData, png, true)])];
    HeadingIsNoMarker(heading);
    assert MatchMarker("p") == None;
    NoPairsNoMarkers(cells);
  }
}

=== FILE: html_cleaner.dfy ===
/**
  The HTML attribute cleaner: drop listed `id` values and listed class names
  from every element of a parsed document.

  Parsing and serialising HTML are outside the model. A document is the
  sequence of its elements in document order; each element keeps its tag
  name, its optional `id`, its optional class list and its other attributes.
  Every element is treated on its own, so the tree shape plays no part.
*/
module HtmlCleaner {
  import opened Results

  /** An element's attributes. `classes == Some([])` is a `class` attribute
      whose value holds no class name. */
  datatype Element = Element(
    name: string,
    id: Option<string>,
    classes: Option<seq<string>>,
    others: seq<(string, string)>)

  type Document = seq<Element>

  /** One pass of the id loop: delete the id of every element whose id is `v`.
      Afterwards no element carries `v`; an element that did not carry it
      is untouched, and one that did loses its id and nothing else. */
  function RemoveIdValue(doc: Document, v: string): (r: Document)
    ensures |r| == |doc|
    ensures forall i :: 0 <= i < |doc| ==> r[i].id != Some(v)
    ensures forall i :: 0 <= i < |doc| && doc[i].id != Some(v) ==> r[i] == doc[i]
    ensures forall i :: 0 <= i < |doc| ==>
      r[i].name == doc[i].name && r[i].classes == doc[i].classes && r[i].others == doc[i].others
    ensures forall i :: 0 <= i < |doc| ==> r[i].id.None? || r[i].id == doc[i].id
  {
    seq(|doc|, i requires 0 <= i < |doc| =>
      if doc[i].id == Some(v) then doc[i].(id := None) else doc[i])
  }

  /** The id loop: one pass per listed value, in list order. */
  function RemoveIds(doc: Document, ids: seq<string>): Document
    decreases |ids|
  {
    if ids == [] then doc else RemoveIds(RemoveIdValue(doc, ids[0]), ids[1..])
  }

  /** The class names not in `remove`, in their original order. */
  function KeptClasses(classes: seq<string>, remove: seq<string>): seq<string> {
    if classes == [] then []
    else (if classes[0] in remove then [] else [classes[0]]) + KeptClasses(classes[1..], remove)
  }

  /** A class name is kept exactly when it was there and is not listed. */
  lemma {:induction false} KeptClassesMembership(classes: seq<string>, remove: seq<string>)
    ensures forall c :: c in KeptClasses(classes, remove) <==> c in classes && c !in remove
  {
    if classes != [] {
      KeptClassesMembership(classes[1..], remove);
      assert classes == [classes[0]] + classes[1..];
    }
  }

  /** The class step for one element: filter its list, and delete the
      attribute when nothing is left. */
  function StripClasses(e: Element, remove: seq<string>): Element {
    match e.classes
    case None => e
    case Some(classes) =>
      var kept := KeptClasses(classes, remove);
      e.(classes := if kept == [] then None else Some(kept))
  }

  /** A filtered class list is empty exactly when every name was listed. */
  lemma KeptClassesEmpty(classes: seq<string>, remove: seq<string>)
    ensures KeptClasses(classes, remove) == [] <==> forall c :: c in classes ==> c in remove
  {
    KeptClassesMembership(classes, remove);
    var kept := KeptClasses(classes, remove);
    if kept != [] {
      assert kept[0] in kept;
    }
  }

  /** The class loop over every element that has a `class` attribute. The
      attribute disappears exactly when it was absent or held only listed
      names; when it stays it holds the unlisted names in their order. The
      tag name, the id and the other attributes never change. */
  function RemoveClasses(doc: Document, remove: seq<string>): (r: Document)
    ensures |r| == |doc|
    ensures forall i :: 0 <= i < |doc| ==>
      r[i].name == doc[i].name && r[i].id == doc[i].id && r[i].others == doc[i].others
    ensures forall i :: 0 <= i < |doc| ==>
      (r[i].classes.None? <==> doc[i].classes.None? || forall c :: c in doc[i].classes.value ==> c in remove)
    ensures forall i :: 0 <= i < |doc| && r[i].classes.Some? ==>
      doc[i].classes.Some? && r[i].classes.value == KeptClasses(doc[i].classes.value, remove)
  {
    var r := seq(|doc|, i requires 0 <= i < |doc| => StripClasses(doc[i], remove));
    assert forall i :: 0 <= i < |doc| ==>
      (r[i].classes.None? <==> doc[i].classes.None? || forall c :: c in doc[i].classes.value ==> c in remove) by {
      forall i | 0 <= i < |doc| && doc[i].classes.Some? {
        KeptClassesEmpty(doc[i].classes.value, remove);
      }
    }
    r
  }

  /** Whether an optional list is present and non-empty: the guard of each loop. */
  predicate Given(list: Option<seq<string>>) {
    list.Some? && list.value != []
  }

  /** `remove_attributes`: each loop runs only for a present, non-empty list. */
  function RemoveAttributes(doc: Document, ids: Option<seq<string>>, classes: Option<seq<string>>): Document {
    var afterIds := if Given(ids) then RemoveIds(doc, ids.value) else doc;
    if Given(classes) then RemoveClasses(afterIds, classes.value) else afterIds
  }

  /** After the id passes an element has no id exactly when it had none or
      its id is one of the values; nothing else about it changes. */
  lemma {:induction false} RemoveIdsSpec(doc: Document, ids: seq<string>)
    ensures var r := RemoveIds(doc, ids);
      && |r| == |doc|
      && forall i :: 0 <= i < |doc| ==>
           r[i] == if doc[i].id.Some? && doc[i].id.value in ids then doc[i].(id := None) else doc[i]
    decreases |ids|
  {
    if ids != [] {
      var once := RemoveIdValue(doc, ids[0]);
      RemoveIdsSpec(once, ids[1..]);
      assert forall v :: v in ids <==> v == ids[0] || v in ids[1..];
    }
  }

  /** Filtering keeps the order of the class names: filtering two runs one
      after the other is filtering each. */
  lemma {:induction false} KeptClassesAppend(a: seq<string>, b: seq<string>, remove: seq<string>)
    ensures KeptClasses(a + b, remove) == KeptClasses(a, remove) + KeptClasses(b, remove)
  {
    if a != [] {
      assert (a + b)[1..] == a[1..] + b;
      KeptClassesAppend(a[1..], b, remove);
    } else {
      assert a + b == b;
    }
  }

  lemma {:induction false} KeptClassesTwice(classes: seq<string>, remove: seq<string>)
    ensures KeptClasses(KeptClasses(classes, remove), remove) == KeptClasses(classes, remove)
  {
    if classes != [] {
      KeptClassesTwice(classes[1..], remove);
      var rest := KeptClasses(classes[1..], remove);
      if classes[0] !in remove {
        var once := [classes[0]] + rest;
        assert KeptClasses(classes, remove) == once;
        assert once[0] == classes[0] && once[1..] == rest;
        assert KeptClasses(once, remove) == [classes[0]] + KeptClasses(rest, remove);
      } else {
        assert KeptClasses(classes, remove) == [] + rest;
        assert [] + rest == rest;
      }
    }
  }

  /** What the cleaner does to one element, stated without passes: the id
      goes exactly when it is listed; when a class list is given, the class
      names are filtered and an attribute left empty is deleted; the tag
      name and every other attribute stay. */
  predicate CleanedFrom(r: Element, e: Element, ids: Option<seq<string>>, classes: Option<seq<string>>) {
    && r.name == e.name
    && r.others == e.others
    && (r.id.None? <==> e.id.None? || (Given(ids) && e.id.value in ids.value))
    && (r.id.Some? ==> r.id == e.id)
    && (!Given(classes) ==> r.classes == e.classes)
    && (Given(classes) ==> match e.classes
         case None => r.classes.None?
         case Some(cs) =>
           var kept := KeptClasses(cs, classes.value);
           r.classes == if kept == [] then None else Some(kept))
  }

  /** `remove_attributes` treats every element as `CleanedFrom` says, and
      keeps the elements' number and order. */
  lemma RemoveAttributesSpec(doc: Document, ids: Option<seq<string>>, classes: Option<seq<string>>)
    ensures var r := RemoveAttributes(doc, ids, classes);
      && |r| == |doc|
      && forall i :: 0 <= i < |doc| ==> CleanedFrom(r[i], doc[i], ids, classes)
  {
    if Given(ids) {
      RemoveIdsSpec(doc, ids.value);
    }
  }

  /** With neither list given the document is unchanged. */
  lemma NothingGivenNoChange(doc: Document)
    ensures RemoveAttributes(doc, None, None) == doc
    ensures RemoveAttributes(doc, Some([]), Some([])) == doc
  {
  }

  /** Cleaning twice with the same lists is cleaning once. */
  lemma RemoveAttributesIdempotent(doc: Document, ids: Option<seq<string>>, classes: Option<seq<string>>)
    ensures var once := RemoveAttributes(doc, ids, classes);
      RemoveAttributes(once, ids, classes) == once
  {
    var once := RemoveAttributes(doc, ids, classes);
    var twice := RemoveAttributes(once, ids, classes);
    RemoveAttributesSpec(doc, ids, classes);
    RemoveAttributesSpec(once, ids, classes);
    forall i | 0 <= i < |doc|
      ensures twice[i] == once[i]
    {
      if Given(classes) && doc[i].classes.Some? {
        KeptClassesTwice(doc[i].classes.value, classes.value);
      }
    }
  }

  /** The index of the first `c` in `s`, or `|s|`. */
  function IndexOf(s: string, c: char): (k: nat)
    ensures k <= |s|
    ensures c !in s[..k]
    ensures k < |s| ==> s[k] == c
  {
    if s == [] then 0
    else if s[0] == c then 0
    else
      var k := 1 + IndexOf(s[1..], c);
      assert s[..k] == [s[0]] + s[1..][..k - 1];
      k
  }

  /** Python's `s.split(",")`: the pieces between commas, at least one. */
  function SplitCommas(s: string): (parts: seq<string>)
    ensures |parts| >= 1
    ensures forall i :: 0 <= i < |parts| ==> ',' !in parts[i]
    decreases |s|
  {
    var k := IndexOf(s, ',');
    if k == |s| then
      assert s[..k] == s;
      [s]
    else
      [s[..k]] + SplitCommas(s[k + 1..])
  }

  /** The pieces joined back with commas. */
  function JoinCommas(parts: seq<string>): string
    requires |parts| >= 1
  {
    if |parts| == 1 then parts[0] else parts[0] + "," + JoinCommas(parts[1..])
  }

  /** Splitting loses nothing: joining the pieces gives the text back. */
  lemma {:induction false} JoinSplit(s: string)
    ensures JoinCommas(SplitCommas(s)) == s
    decreases |s|
  {
    var k := IndexOf(s, ',');
    if k == |s| {
      assert s[..k] == s;
      assert SplitCommas(s) == [s];
    } else {
      var head, rest := s[..k], s[k + 1..];
      var tail := SplitCommas(rest);
      assert SplitCommas(s) == [head] + tail;
      JoinSplit(rest);
      assert |[head] + tail| > 1;
      assert ([head] + tail)[0] == head && ([head] + tail)[1..] == tail;
      assert JoinCommas([head] + tail) == head + "," + JoinCommas(tail);
      CommaSplitsAt(s, k);
    }
  }

  lemma CommaSplitsAt(s: string, k: nat)
    requires k < |s| && s[k] == ','
    ensures s == s[..k] + "," + s[k + 1..]
  {
    assert s == s[..k] + [s[k]] + s[k + 1..];
  }

  /** Joining comma-free pieces and splitting again gives the pieces back. */
  lemma {:induction false} SplitJoin(parts: seq<string>)
    requires |parts| >= 1
    requires forall i :: 0 <= i < |parts| ==> ',' !in parts[i]
    ensures SplitCommas(JoinCommas(parts)) == parts
    decreases |parts|
  {
    var s := JoinCommas(parts);
    if |parts| == 1 {
      assert IndexOf(s, ',') == |s|;
    } else {
      var head := parts[0];
      var tail := JoinCommas(parts[1..]);
      assert s == head + "," + tail;
      HeadIndex(head, tail);
      assert s[..|head|] == head;
      assert s[|head| + 1..] == tail;
      SplitJoin(parts[1..]);
    }
  }

  lemma HeadIndex(head: string, tail: string)
    requires ',' !in head
    ensures IndexOf(head + "," + tail, ',') == |head|
  {
    var s := head + "," + tail;
    var k := IndexOf(s, ',');
    assert s[|head|] == ',';
  }

  /** `main`'s reading of a list flag: an absent or empty flag is the empty
      list, anything else the comma-separated pieces. */
  function ParseListFlag(flag: Option<string>): (list: seq<string>)
    ensures list == [] <==> flag.None? || flag.value == ""
    ensures list != [] ==> JoinCommas(list) == flag.value
  {
    if flag.None? || flag.value == "" then []
    else
      JoinSplit(flag.value);
      SplitCommas(flag.value)
  }

  /** The cleaner's effect for the two command-line flags. */
  function CleanHtml(doc: Document, idsFlag: Option<string>, classesFlag: Option<string>): Document {
    RemoveAttributes(doc, Some(ParseListFlag(idsFlag)), Some(ParseListFlag(classesFlag)))
  }

  /** From the command line: an id goes exactly when it is one of the
      comma-separated values of `--ids`; a class name goes exactly when it
      is one of those of `--classes`, and a class attribute left with no
      names is removed. Without `--classes` the class attribute, even an
      empty one, stays as it was. */
  lemma CleanHtmlSpec(doc: Document, idsFlag: Option<string>, classesFlag: Option<string>, i: nat)
    requires i < |doc|
    ensures var r := CleanHtml(doc, idsFlag, classesFlag);
      && |r| == |doc|
      && (r[i].id.None? <==> doc[i].id.None? || doc[i].id.value in ParseListFlag(idsFlag))
      && (r[i].classes.Some? ==>
            doc[i].classes.Some? &&
            forall c :: c in r[i].classes.value <==>
              c in doc[i].classes.value && c !in ParseListFlag(classesFlag))
      && (doc[i].classes.Some? && (exists c :: c in doc[i].classes.value && c !in ParseListFlag(classesFlag)) ==>
            r[i].classes.Some?)
      && (ParseListFlag(classesFlag) != [] && doc[i].classes.Some? &&
          (forall c :: c in doc[i].classes.value ==> c in ParseListFlag(classesFlag)) ==>
            r[i].classes.None?)
      && (ParseListFlag(classesFlag) == [] ==> r[i].classes == doc[i].classes)
  {
    RemoveAttributesSpec(doc, Some(ParseListFlag(idsFlag)), Some(ParseListFlag(classesFlag)));
    if doc[i].classes.Some? {
      KeptClassesMembership(doc[i].classes.value, ParseListFlag(classesFlag));
      KeptClassesEmpty(doc[i].classes.value, ParseListFlag(classesFlag));
    }
  }

  /** `--ids a,b` removes the ids `a` and `b` and keeps `ab`. */
  lemma IdsFlagExample(flag: string)
    requires flag == "a,b"
    ensures ParseListFlag(Some(flag)) == ["a", "b"]
  {
    SplitJoin(["a", "b"]);
    assert JoinCommas(["a", "b"]) == flag;
  }
}

=== FILE: markers.dfy ===
/**
  The gallery marker `GALLERY_RE = ^# Gallery, (?P<category>\w+)$` with
  `re.MULTILINE`, applied with `re.match`.

  `re.match` anchors at the start of the cell source, so only the first line
  can be a marker even though `^` and `$` are line anchors. `$` accepts the end
  of the source or a following line feed; since `\w+` cannot stop before a word
  character, the category is the whole first-line word after the prefix.
*/
module MarkerSyntax {
  import opened Chars
  import opened Results

  const MarkerPrefix: string := "# Gallery, "

  /** The length of the longest prefix of `s` made of word characters. */
  function WordLength(s: string): (n: nat)
    ensures n <= |s|
  {
    if s != [] && IsWordChar(s[0]) then 1 + WordLength(s[1..]) else 0
  }

  /** What `\w+` captures greedily: the first `WordLength(s)` characters are
      word characters and the next one, if any, is not. */
  lemma {:induction false} WordLengthSpec(s: string)
    ensures forall i :: 0 <= i < WordLength(s) ==> IsWordChar(s[i])
    ensures WordLength(s) == |s| || !IsWordChar(s[WordLength(s)])
  {
    if s != [] && IsWordChar(s[0]) {
      WordLengthSpec(s[1..]);
    }
  }

  /** `GALLERY_RE.match(source)`: the captured category, if the source starts
      with a marker line. */
  function MatchMarker(source: string): Option<string>
  {
    if MarkerPrefix <= source then
      var rest := source[|MarkerPrefix|..];
      var n := WordLength(rest);
      if n > 0 && (n == |rest| || rest[n] == '\n') then Some(rest[..n]) else None
    else None
  }

  /** The marker line, stated without the matcher: the source begins with
      `# Gallery, <category>` where the category is a non-empty word, and the
      line ends there (end of source or a line feed). */
  predicate StartsWithMarker(source: string, category: string) {
    && category != []
    && (forall i :: 0 <= i < |category| ==> IsWordChar(category[i]))
    && (source == MarkerPrefix + category || MarkerPrefix + category + "\n" <= source)
  }

  /** The matcher accepts a source with exactly the category of its first line. */
  lemma MatchMarkerSpec(source: string, category: string)
    ensures MatchMarker(source) == Some(category) <==> StartsWithMarker(source, category)
  {
    if StartsWithMarker(source, category) {
      var p := MarkerPrefix;
      var rest := source[|p|..];
      assert category <= rest;
      if |category| < |rest| {
        assert rest[|category|] == (p + category + "\n")[|p| + |category|];
      }
      WordLengthRun(rest, |category|);
      assert rest[..|category|] == category;
    }
    if MatchMarker(source) == Some(category) {
      var rest := source[|MarkerPrefix|..];
      WordLengthSpec(rest);
      assert source == MarkerPrefix + rest;
      if |category| < |rest| {
        assert rest[..|category| + 1] == category + "\n";
        assert MarkerPrefix + category + "\n" == source[..|MarkerPrefix| + |category| + 1];
      }
    }
  }

  /** A marker line yields its category, whether it is the whole source or
      is followed by a line feed and more code. */
  lemma MarkerLineMatches(category: string, code: string)
    requires category != []
    requires forall i :: 0 <= i < |category| ==> IsWordChar(category[i])
    ensures MatchMarker(MarkerPrefix + category) == Some(category)
    ensures MatchMarker(MarkerPrefix + category + "\n" + code) == Some(category)
  {
    MatchMarkerSpec(MarkerPrefix + category, category);
    var s := MarkerPrefix + category + "\n" + code;
    assert s[..|MarkerPrefix + category + "\n"|] == MarkerPrefix + category + "\n";
    MatchMarkerSpec(s, category);
  }

  /** Any character other than a word character or a line feed right after
      the category, such as a space or a carriage return, makes the first
      line no marker. */
  lemma MarkerTrailingText(category: string, c: char, more: string)
    requires forall i :: 0 <= i < |category| ==> IsWordChar(category[i])
    requires !IsWordChar(c) && c != '\n'
    ensures MatchMarker(MarkerPrefix + category + [c] + more) == None
  {
    var s := MarkerPrefix + category + [c] + more;
    var rest := s[|MarkerPrefix|..];
    assert s == MarkerPrefix + (category + [c] + more);
    assert rest == category + [c] + more;
    WordLengthRun(rest, |category|);
  }

  /** The captured word is the first `n` characters when they are word
      characters and the text ends or continues with a non-word character. */
  lemma WordLengthRun(s: string, n: nat)
    requires n <= |s| && (n == |s| || !IsWordChar(s[n]))
    requires forall i :: 0 <= i < n ==> IsWordChar(s[i])
    ensures WordLength(s) == n
  {
    WordLengthSpec(s);
  }

  lemma MarkerLineHasNoLineFeed(category: string, k: nat)
    requires forall i :: 0 <= i < |category| ==> IsWordChar(category[i])
    requires k < |MarkerPrefix + category|
    ensures (MarkerPrefix + category)[k] != '\n'
  {
  }

  /** A marker that is not on the first line is ignored. */
  lemma MarkerOnlyOnFirstLine(firstLine: string, rest: string)
    requires '\n' !in firstLine
    requires MatchMarker(firstLine).None?
    ensures MatchMarker(firstLine + "\n" + rest).None?
  {
    var s := firstLine + "\n" + rest;
    if MatchMarker(s).Some? {
      var c := MatchMarker(s).value;
      MatchMarkerSpec(s, c);
      MatchMarkerSpec(firstLine, c);
      // The marker line of `s` would end inside, at, or after the end of the
      // first line; each is impossible.
      var n := |MarkerPrefix + c|;
      if |firstLine| < n {
        MarkerLineHasNoLineFeed(c, |firstLine|);
        assert false;
      } else if |firstLine| == n {
        assert false;
      } else {
        assert false;
      }
    }
  }

  /** A level-3 markdown heading is no marker. */
  lemma HeadingIsNoMarker(source: string)
    requires "### " <= source
    ensures MatchMarker(source) == None
  {
    assert source[1] != MarkerPrefix[1];
  }
}

=== FILE: notebooks.dfy ===
/**
  Parsed notebooks and the notebook scan of `render_gallery_items`.

  A notebook is taken already parsed: an ordered sequence of cells, each with
  its kind, its source text and its execution outputs. Reading the file is
  outside the model; a file the reader rejects is `Malformed`.
*/
module Notebooks {
  import opened Chars

  /** The `cell_type` of a notebook cell. */
  datatype CellKind = Markdown | Code | RawCell

  /** The `output_type` of an execution output. */
  datatype OutputKind = ExecuteResult | DisplayData | Stream | ErrorOutput

  /** An execution output. `png` is the base64 text under `image/png`;
      `decodable` says whether the raster library accepts it. */
  datatype Output = Output(kind: OutputKind, png: string, decodable: bool)

  /** A notebook cell. In a notebook file only code cells hold outputs;
      the type does not enforce this, and markdown and raw cells read from
      a file have an empty output list. */
  datatype Cell = Cell(kind: CellKind, source: string, outputs: seq<Output>)

  /** The two scanned directories, relative to the documentation source root:
      `reference/examples` (the examples root) and `tutorials`. */
  datatype Root = Examples | Tutorials

  /** What the notebook reader makes of a file. */
  datatype Content = Parsed(cells: seq<Cell>) | Malformed

  /** A file found in one of the two roots. */
  datatype NotebookFile = NotebookFile(root: Root, name: string, content: Content)

  const NotebookSuffix: string := ".ipynb"
  const ExecutedSuffix: string := ".out.ipynb"

  function RootDir(root: Root): string {
    match root
    case Examples => "reference/examples"
    case Tutorials => "tutorials"
  }

  /** The path relative to the documentation source root. */
  function RelPath(f: NotebookFile): (p: string)
    ensures EndsWith(p, f.name)
  {
    RootDir(f.root) + "/" + f.name
  }

  /** `Path.stem` of a name matched by `*.ipynb`: the name without its last
      suffix, except that `.ipynb` alone is a dot-file name with no suffix. */
  function Stem(name: string): (stem: string)
    requires EndsWith(name, NotebookSuffix)
    ensures name == NotebookSuffix ==> stem == name
    ensures name != NotebookSuffix ==> stem + NotebookSuffix == name
  {
    if name == NotebookSuffix then name else name[..|name| - |NotebookSuffix|]
  }

  /** The scan filter: `*.ipynb` minus names ending `.out.ipynb`. */
  predicate IsSourceNotebook(f: NotebookFile) {
    EndsWith(f.name, NotebookSuffix) && !EndsWith(f.name, ExecutedSuffix)
  }

  /** The order of `sorted` over the paths. Paths compare part by part; the
      first differing part is `reference` against `tutorials` across roots,
      and the file name within one root. */
  predicate PathLe(a: NotebookFile, b: NotebookFile) {
    if a.root != b.root then a.root == Examples else LexLe(a.name, b.name)
  }

  lemma PathLeTotal(a: NotebookFile, b: NotebookFile)
    ensures PathLe(a, b) || PathLe(b, a)
  {
    LexLeTotal(a.name, b.name);
  }

  lemma PathLeTransitive(a: NotebookFile, b: NotebookFile, c: NotebookFile)
    requires PathLe(a, b) && PathLe(b, c)
    ensures PathLe(a, c)
  {
    if a.root == b.root == c.root {
      LexLeTransitive(a.name, b.name, c.name);
    }
  }

  predicate Sorted(fs: seq<NotebookFile>) {
    forall i, j :: 0 <= i < j < |fs| ==> PathLe(fs[i], fs[j])
  }

  /** The files that pass the scan filter, in the order given: each file
      that passes occurs as often as it is listed, and no other file occurs. */
  function FilterSources(fs: seq<NotebookFile>): (r: seq<NotebookFile>)
    ensures forall f :: f in r <==> f in fs && IsSourceNotebook(f)
    ensures forall f :: multiset(r)[f] == if IsSourceNotebook(f) then multiset(fs)[f] else 0
  {
    if fs == [] then []
    else
      assert fs == [fs[0]] + fs[1..];
      var h := if IsSourceNotebook(fs[0]) then [fs[0]] else [];
      var rest := FilterSources(fs[1..]);
      assert multiset(h + rest) == multiset(h) + multiset(rest);
      assert multiset(fs) == multiset{fs[0]} + multiset(fs[1..]);
      h + rest
  }

  /** `lo` is not above any element of `fs`. */
  predicate Below(lo: NotebookFile, fs: seq<NotebookFile>) {
    forall k :: 0 <= k < |fs| ==> PathLe(lo, fs[k])
  }

  lemma SortedCons(lo: NotebookFile, fs: seq<NotebookFile>)
    requires Sorted(fs) && Below(lo, fs)
    ensures Sorted([lo] + fs)
  {
    var s := [lo] + fs;
    forall i, j | 0 <= i < j < |s|
      ensures PathLe(s[i], s[j])
    {
      assert s[j] == fs[j - 1];
      if i > 0 {
        assert s[i] == fs[i - 1];
      }
    }
  }

  lemma SortedTail(fs: seq<NotebookFile>)
    requires Sorted(fs) && fs != []
    ensures Sorted(fs[1..]) && Below(fs[0], fs[1..])
  {
    forall k | 0 <= k < |fs| - 1
      ensures PathLe(fs[0], fs[1..][k])
    {
      assert fs[1..][k] == fs[k + 1];
    }
  }

  /** A bound that holds for `f` and for every element of `fs` holds for
      every element of a permutation of `fs` plus `f`. */
  lemma BelowPermutation(lo: NotebookFile, f: NotebookFile, fs: seq<NotebookFile>, r: seq<NotebookFile>)
    requires PathLe(lo, f) && Below(lo, fs)
    requires multiset(r) == multiset(fs) + multiset{f}
    ensures Below(lo, r)
  {
    forall k | 0 <= k < |r|
      ensures PathLe(lo, r[k])
    {
      assert r[k] in multiset(r);
      if r[k] != f {
        assert r[k] in multiset(fs);
        var m :| 0 <= m < |fs| && fs[m] == r[k];
      }
    }
  }

  /** An element not above the head of a sorted sequence is below all of it. */
  lemma BelowHead(f: NotebookFile, fs: seq<NotebookFile>)
    requires Sorted(fs) && fs != [] && PathLe(f, fs[0])
    ensures Below(f, fs)
  {
    forall k | 0 < k < |fs|
      ensures PathLe(f, fs[k])
    {
      PathLeTransitive(f, fs[0], fs[k]);
    }
  }

  /** Insert `f` into a sorted sequence, after every element not above it. */
  function Insert(f: NotebookFile, fs: seq<NotebookFile>): (r: seq<NotebookFile>)
    requires Sorted(fs)
    ensures Sorted(r)
    ensures multiset(r) == multiset(fs) + multiset{f}
  {
    if fs == [] then [f]
    else if PathLe(fs[0], f) then
      SortedTail(fs);
      var rest := Insert(f, fs[1..]);
      BelowPermutation(fs[0], f, fs[1..], rest);
      SortedCons(fs[0], rest);
      assert fs == [fs[0]] + fs[1..];
      assert multiset(fs) == multiset{fs[0]} + multiset(fs[1..]);
      assert multiset([fs[0]] + rest) == multiset{fs[0]} + multiset(rest);
      [fs[0]] + rest
    else
      PathLeTotal(fs[0], f);
      BelowHead(f, fs);
      SortedCons(f, fs);
      assert multiset([f] + fs) == multiset{f} + multiset(fs);
      [f] + fs
  }

  /** `sorted`: an ordered permutation of the input. */
  function Sort(fs: seq<NotebookFile>): (r: seq<NotebookFile>)
    ensures Sorted(r)
    ensures multiset(r) == multiset(fs)
  {
    if fs == [] then []
    else
      assert fs == [fs[0]] + fs[1..];
      Insert(fs[0], Sort(fs[1..]))
  }

  /** The notebooks the gallery visits, given every file the two globs list:
      the `.ipynb` files that are not executed copies, in path order. */
  function SelectNotebooks(listed: seq<NotebookFile>): (r: seq<NotebookFile>)
    ensures Sorted(r)
    ensures multiset(r) == multiset(FilterSources(listed))
    ensures forall i :: 0 <= i < |r| ==> EndsWith(r[i].name, NotebookSuffix)
  {
    var kept := FilterSources(listed);
    var r := Sort(kept);
    SameElements(r, kept);
    assert forall i :: 0 <= i < |r| ==> EndsWith(r[i].name, NotebookSuffix) by {
      forall i | 0 <= i < |r|
        ensures EndsWith(r[i].name, NotebookSuffix)
      {
        assert r[i] in kept;
      }
    }
    r
  }

  /** The scanned notebooks are the qualifying files of the listing, each as
      often as it is listed, in path order. */
  lemma SelectNotebooksSpec(listed: seq<NotebookFile>)
    ensures Sorted(SelectNotebooks(listed))
    ensures var r := SelectNotebooks(listed);
      forall f :: multiset(r)[f] == if IsSourceNotebook(f) then multiset(listed)[f] else 0
    ensures forall f :: f in SelectNotebooks(listed) <==> f in listed && IsSourceNotebook(f)
  {
  }

  /** Sequences with equal multisets have the same elements. */
  lemma SameElements(a: seq<NotebookFile>, b: seq<NotebookFile>)
    requires multiset(a) == multiset(b)
    ensures forall x :: x in a <==> x in b
  {
    forall x
      ensures x in a <==> x in b
    {
      assert x in a <==> x in multiset(a);
      assert x in b <==> x in multiset(b);
    }
  }
}

=== FILE: results.dfy ===
/** Failure-carrying wrappers shared by the gallery and cleaner models. */
module Results {

  /** An optional value: Python's `None` or a present value. */
  datatype Option<+T> = None | Some(value: T)

  /** The outcome of an operation that may raise: a value or the error it raised. */
  datatype Result<+T, +E> = Success(value: T) | Failure(error: E)
}

=== FILE: sections.dfy ===
/**
  The section table and `render_gallery_items`: classify every image by its
  category, group the images by section title in a fixed order, drop empty
  sections, and stop at the first failure.

  A rendered section is a level-2 header (class `gallery`) followed by a grid
  (class `grid`) of its images; both are kept abstract as `Block`s.
*/
module Sections {
  import opened Results
  import opened Chars
  import opened Notebooks
  import opened Extraction

  /** `section_names`: category tag to section title, in declared order. */
  const SectionNames: seq<(string, string)> := [
    ("points", "Scatter Plots"),
    ("lines", "Lines and Paths"),
    ("paths", "Lines and Paths"),
    ("areas", "Area Plots"),
    ("bars", "Bar Plots"),
    ("distributions", "Distributions"),
    ("tiles", "Tiles"),
    ("variations", "Variation Plots"),
    ("maps", "Maps"),
    ("labels", "Look & Feel"),
    ("themes", "Look & Feel"),
    ("elaborate", "Elaborate Graphics")
  ]

  predicate NoDuplicates(s: seq<string>) {
    forall i, j :: 0 <= i < j < |s| ==> s[i] != s[j]
  }

  /** The titles of a table with repeats dropped, in order of first
      appearance: the key order of a dict built by iterating the values. */
  function DistinctValues(table: seq<(string, string)>): seq<string> {
    if table == [] then []
    else
      var r := DistinctValues(table[..|table| - 1]);
      var v := table[|table| - 1].1;
      if v in r then r else r + [v]
  }

  /** Each title of the table appears exactly once. */
  lemma {:induction false} DistinctValuesSpec(table: seq<(string, string)>)
    ensures NoDuplicates(DistinctValues(table))
    ensures forall v :: v in DistinctValues(table) <==> exists i :: 0 <= i < |table| && table[i].1 == v
  {
    if table != [] {
      var front := table[..|table| - 1];
      DistinctValuesSpec(front);
      assert forall i :: 0 <= i < |front| ==> front[i] == table[i];
    }
  }

  /** The section order: the keys of `section_images`, which are the table's
      titles in order of first appearance (`SectionTitlesListed`). */
  const SectionTitles: seq<string> := ["Scatter Plots", "Lines and Paths", "Area Plots", "Bar Plots",
    "Distributions", "Tiles", "Variation Plots", "Maps", "Look & Feel", "Elaborate Graphics"]

  /** `section_names[category]`: the title of the row with that tag (each
      tag of the table has one row), or `None` (a `KeyError`) when no row
      has it. */
  function Lookup(table: seq<(string, string)>, key: string): Option<string> {
    if table == [] then None
    else if table[0].0 == key then Some(table[0].1)
    else Lookup(table[1..], key)
  }

  /** A lookup fails exactly when no row has the tag, and succeeds with a
      title that some row pairs with the tag. */
  lemma {:induction false} LookupSpec(table: seq<(string, string)>, key: string)
    ensures Lookup(table, key).None? <==> forall i :: 0 <= i < |table| ==> table[i].0 != key
    ensures Lookup(table, key).Some? ==>
      exists i :: 0 <= i < |table| && table[i] == (key, Lookup(table, key).value)
  {
    if table != [] && table[0].0 != key {
      LookupSpec(table[1..], key);
      assert forall i :: 1 <= i < |table| ==> table[1..][i - 1] == table[i];
      if Lookup(table, key).Some? {
        var i :| 0 <= i < |table[1..]| && table[1..][i] == (key, Lookup(table, key).value);
        assert table[i + 1] == (key, Lookup(table, key).value);
      }
    }
  }

  function Classify(category: string): Option<string> {
    Lookup(SectionNames, category)
  }

  /** Every title the table gives is one of the section titles. */
  lemma ClassifiedTitleListed(category: string)
    ensures Classify(category).Some? ==> Classify(category).value in SectionTitles
  {
    LookupSpec(SectionNames, category);
    DistinctValuesSpec(SectionNames);
    SectionTitlesListed();
  }

  /** An abstract output block: a section header or the grid of its images. */
  datatype Block = Header(title: string) | Grid(images: seq<GalleryImage>)

  /** The failures `render_gallery_items` raises: a notebook that could not be
      processed, or an image whose tag is not in the table. */
  datatype Failure = CouldNotProcess(path: string) | UnknownGalleryTag(category: string)

  predicate InSectionOf(img: GalleryImage, title: string) {
    Classify(img.category) == Some(title)
  }

  /** The images of one section, in encounter order. */
  function InSection(images: seq<GalleryImage>, title: string): seq<GalleryImage> {
    if images == [] then []
    else
      var last := images[|images| - 1];
      InSection(images[..|images| - 1], title) + (if InSectionOf(last, title) then [last] else [])
  }

  /** A section holds exactly the images whose tag maps to its title. */
  lemma {:induction false} InSectionMembership(images: seq<GalleryImage>, title: string)
    ensures forall img :: img in InSection(images, title) <==> img in images && InSectionOf(img, title)
  {
    if images != [] {
      var front := images[..|images| - 1];
      InSectionMembership(front, title);
      assert images == front + [images[|images| - 1]];
    }
  }

  lemma InSectionSnoc(images: seq<GalleryImage>, img: GalleryImage, title: string)
    ensures InSection(images + [img], title) ==
      InSection(images, title) + (if InSectionOf(img, title) then [img] else [])
  {
    assert (images + [img])[..|images|] == images;
  }

  /** The blocks for the titles in order: a header and a grid for every title
      with at least one image, nothing for the others. */
  function SectionBlocks(titles: seq<string>, images: seq<GalleryImage>): seq<Block> {
    if titles == [] then []
    else
      var imgs := InSection(images, titles[0]);
      (if imgs == [] then [] else [Header(titles[0]), Grid(imgs)])
      + SectionBlocks(titles[1..], images)
  }

  /** The titles whose sections are non-empty, in the given order. */
  function NonEmptyTitles(titles: seq<string>, images: seq<GalleryImage>): (r: seq<string>)
    ensures forall t :: t in r <==> t in titles && InSection(images, t) != []
  {
    if titles == [] then []
    else
      (if InSection(images, titles[0]) != [] then [titles[0]] else [])
      + NonEmptyTitles(titles[1..], images)
  }

  /** The images of every grid, one grid after another. */
  function GridImages(blocks: seq<Block>): seq<GalleryImage> {
    if blocks == [] then []
    else (if blocks[0].Grid? then blocks[0].images else []) + GridImages(blocks[1..])
  }

  /** Whether the consumer takes a step: an image with a known tag. */
  predicate Accepted(s: Step) {
    s.Emit? && Classify(s.image.category).Some?
  }

  /** The exception a rejected step raises. */
  function Report(s: Step): (e: Failure)
    ensures e.CouldNotProcess? <==> s.Abort?
  {
    match s
    case Abort(path) => CouldNotProcess(path)
    case Emit(img, _) => UnknownGalleryTag(img.category)
  }

  /** The index of the first rejected step, or `|steps|`. */
  function FirstRejected(steps: seq<Step>): (k: nat)
    ensures k <= |steps|
  {
    if steps == [] || !Accepted(steps[0]) then 0 else 1 + FirstRejected(steps[1..])
  }

  /** Every step before the first rejected one is accepted, and the step at
      that index, if any, is rejected. */
  lemma {:induction false} FirstRejectedSpec(steps: seq<Step>)
    ensures forall i :: 0 <= i < FirstRejected(steps) ==> Accepted(steps[i])
    ensures FirstRejected(steps) < |steps| ==> !Accepted(steps[FirstRejected(steps)])
  {
    if steps != [] && Accepted(steps[0]) {
      FirstRejectedSpec(steps[1..]);
      assert forall i :: 1 <= i < |steps| ==> steps[i] == steps[1..][i - 1];
    }
  }

  /** Scanning from the front, a step is accepted exactly when the first
      rejected step lies further on. */
  lemma FirstRejectedAt(steps: seq<Step>, i: nat)
    requires i < |steps| && i <= FirstRejected(steps)
    ensures Accepted(steps[i]) <==> i < FirstRejected(steps)
  {
    FirstRejectedSpec(steps);
    var k := FirstRejected(steps);
    if i < k {
      assert Accepted(steps[i]);
    } else {
      assert i == k;
      assert !Accepted(steps[k]);
    }
  }

  /** The images of the emitting steps, in order. */
  function Images(steps: seq<Step>): seq<GalleryImage> {
    if steps == [] then []
    else
      var last := steps[|steps| - 1];
      Images(steps[..|steps| - 1]) + (if last.Emit? then [last.image] else [])
  }

  /** The thumbnails written by the first `n` steps, in order. */
  function Written(steps: seq<Step>, n: nat): seq<Thumbnail>
    requires n <= |steps|
  {
    if n == 0 then []
    else Written(steps, n - 1) + (if steps[n - 1].Emit? then [steps[n - 1].thumbnail] else [])
  }

  /** Every title a known tag maps to is one of `titles`. */
  ghost predicate Covers(titles: seq<string>) {
    forall c :: Classify(c).Some? ==> Classify(c).value in titles
  }

  lemma SectionTitlesCover()
    ensures Covers(SectionTitles)
  {
    forall c | Classify(c).Some?
      ensures Classify(c).value in SectionTitles
    {
      ClassifiedTitleListed(c);
    }
  }

  /** The consuming loop of `render_gallery_items`: take steps until one is
      rejected, appending each image to its section. Returns the failure, if
      any, the thumbnails written, and the section map, whose keys are
      `titles`. */
  method GroupSteps(steps: seq<Step>, titles: seq<string>)
    returns (failure: Option<Failure>, written: seq<Thumbnail>, sections: map<string, seq<GalleryImage>>)
    requires Covers(titles)
    ensures var k := FirstRejected(steps);
      && (k == |steps| ==> failure == None && written == Written(steps, |steps|))
      && (k < |steps| ==> failure == Some(Report(steps[k])) && written == Written(steps, k + 1))
    ensures failure == None ==> Grouped(sections, titles, Images(steps))
  {
    sections := map t | t in titles :: [];
    written := [];
    var i := 0;
    assert steps[..0] == [];
    assert Grouped(sections, titles, Images(steps[..0])) by {
      forall t | t in titles
        ensures t in sections && sections[t] == InSection(Images(steps[..0]), t)
      {
        assert InSection([], t) == [];
      }
    }
    while i < |steps|
      invariant i <= FirstRejected(steps)
      invariant written == Written(steps, i)
      invariant Grouped(sections, titles, Images(steps[..i]))
    {
      var s := steps[i];
      FirstRejectedAt(steps, i);
      if s.Abort? {
        assert Written(steps, i + 1) == written + [];
        assert written + [] == written;
        failure := Some(CouldNotProcess(s.path));
        return;
      }
      written := written + [s.thumbnail];
      assert written == Written(steps, i + 1);
      var section := Classify(s.image.category);
      if section.None? {
        failure := Some(UnknownGalleryTag(s.image.category));
        return;
      }
      ghost var before := Images(steps[..i]);
      StepsSnoc(steps, i);
      assert Images(steps[..i + 1]) == before + [s.image];
      GroupedSnoc(sections, titles, before, s.image, section.value);
      sections := sections[section.value := sections[section.value] + [s.image]];
      assert Grouped(sections, titles, Images(steps[..i + 1]));
      i := i + 1;
    }
    assert steps[..i] == steps;
    failure := None;
  }

  /** `sections` holds, under every title, that section's images. */
  ghost predicate Grouped(sections: map<string, seq<GalleryImage>>, titles: seq<string>, images: seq<GalleryImage>) {
    forall t :: t in titles ==> t in sections && sections[t] == InSection(images, t)
  }

  /** Appending an image to its own section keeps the map grouped. */
  lemma GroupedSnoc(sections: map<string, seq<GalleryImage>>, titles: seq<string>, images: seq<GalleryImage>,
                    img: GalleryImage, title: string)
    requires Grouped(sections, titles, images) && Covers(titles)
    requires Classify(img.category) == Some(title)
    ensures title in sections
    ensures Grouped(sections[title := sections[title] + [img]], titles, images + [img])
  {
    var after := sections[title := sections[title] + [img]];
    forall t | t in titles
      ensures t in after && after[t] == InSection(images + [img], t)
    {
      InSectionSnoc(images, img, t);
    }
  }

  lemma StepsSnoc(steps: seq<Step>, i: nat)
    requires i < |steps|
    ensures Images(steps[..i + 1]) ==
      Images(steps[..i]) + (if steps[i].Emit? then [steps[i].image] else [])
  {
    assert steps[..i + 1][..i] == steps[..i];
  }

  /** The rendering loop: a header and a grid per non-empty section, in the
      order of the titles. */
  method EmitSections(titles: seq<string>, sections: map<string, seq<GalleryImage>>, ghost images: seq<GalleryImage>)
    returns (blocks: seq<Block>)
    requires Grouped(sections, titles, images)
    ensures blocks == SectionBlocks(titles, images)
  {
    blocks := [];
    var n := 0;
    while n < |titles|
      invariant n <= |titles|
      invariant blocks == SectionBlocks(titles[..n], images)
    {
      var title := titles[n];
      assert titles[..n + 1] == titles[..n] + [title];
      SectionBlocksAppend(titles[..n], title, images);
      if sections[title] != [] {
        blocks := blocks + [Header(title), Grid(sections[title])];
      }
      n := n + 1;
    }
    assert titles[..n] == titles;
  }

  /** The outcome of `render_gallery_items` on a step stream. With no
      rejected step, the blocks are the non-empty sections in table order and
      every thumbnail is written; otherwise the first rejected step's failure
      is raised and the thumbnails written up to and including that step,
      among them that of an image whose tag is unknown, stay written. */
  predicate RenderedFrom(steps: seq<Step>, r: Result<seq<Block>, Failure>, written: seq<Thumbnail>) {
    var k := FirstRejected(steps);
    if k == |steps| then
      r == Success(SectionBlocks(SectionTitles, Images(steps))) && written == Written(steps, |steps|)
    else
      r == Failure(Report(steps[k])) && written == Written(steps, k + 1)
  }

  /** `render_gallery_items` over the files the two globs list. */
  method RenderGalleryItems(listed: seq<NotebookFile>)
    returns (r: Result<seq<Block>, Failure>, written: seq<Thumbnail>)
    ensures RenderedFrom(GallerySteps(SelectNotebooks(listed)), r, written)
  {
    var steps := GallerySteps(SelectNotebooks(listed));
    r, written := RenderSteps(steps);
  }

  /** The body of `render_gallery_items` once the notebooks are listed:
      group the step stream, then render the sections or report the
      first failure. */
  method RenderSteps(steps: seq<Step>)
    returns (r: Result<seq<Block>, Failure>, written: seq<Thumbnail>)
    ensures RenderedFrom(steps, r, written)
  {
    var failure, sections;
    SectionTitlesCover();
    failure, written, sections := GroupSteps(steps, SectionTitles);
    ghost var k := FirstRejected(steps);
    if failure.Some? {
      assert k < |steps| && failure.value == Report(steps[k]);
      r := Failure(failure.value);
    } else {
      assert k == |steps|;
      var blocks := EmitSections(SectionTitles, sections, Images(steps));
      r := Success(blocks);
    }
  }

  lemma {:induction false} SectionBlocksAppend(titles: seq<string>, t: string, images: seq<GalleryImage>)
    ensures SectionBlocks(titles + [t], images) ==
      SectionBlocks(titles, images)
      + (if InSection(images, t) == [] then [] else [Header(t), Grid(InSection(images, t))])
  {
    if titles != [] {
      assert (titles + [t])[1..] == titles[1..] + [t];
      SectionBlocksAppend(titles[1..], t, images);
    }
  }

  lemma DistinctValuesSnoc(table: seq<(string, string)>, row: (string, string))
    ensures DistinctValues(table + [row]) ==
      var r := DistinctValues(table);
      if row.1 in r then r else r + [row.1]
  {
    assert (table + [row])[..|table|] == table;
  }

  /** A row with a new title appends it. */
  lemma NewTitleStep(t: seq<(string, string)>, n: nat, titles: seq<string>, m: nat)
    requires n < |t| && m < |titles| && NoDuplicates(titles)
    requires DistinctValues(t[..n]) == titles[..m] && t[n].1 == titles[m]
    ensures DistinctValues(t[..n + 1]) == titles[..m + 1]
  {
    assert t[..n + 1] == t[..n] + [t[n]];
    DistinctValuesSnoc(t[..n], t[n]);
    assert titles[m] !in titles[..m];
    assert titles[..m + 1] == titles[..m] + [titles[m]];
  }

  /** A row whose title is already listed changes nothing. */
  lemma OldTitleStep(t: seq<(string, string)>, n: nat, titles: seq<string>, m: nat)
    requires n < |t| && 0 < m <= |titles|
    requires DistinctValues(t[..n]) == titles[..m] && t[n].1 == titles[m - 1]
    ensures DistinctValues(t[..n + 1]) == titles[..m]
  {
    assert t[..n + 1] == t[..n] + [t[n]];
    DistinctValuesSnoc(t[..n], t[n]);
    assert titles[..m][m - 1] == titles[m - 1];
  }

  /** The titles, in order of first appearance, of a twelve-row table whose
      rows carry ten distinct titles the way the section table does: rows 2
      and 3 share a title, and so do rows 10 and 11. */
  lemma {:induction false} TitlesOfRows(t: seq<(string, string)>, titles: seq<string>)
    requires |t| == 12 && |titles| == 10 && NoDuplicates(titles)
    requires t[0].1 == titles[0] && t[1].1 == titles[1] && t[2].1 == titles[1]
    requires t[3].1 == titles[2] && t[4].1 == titles[3] && t[5].1 == titles[4]
    requires t[6].1 == titles[5] && t[7].1 == titles[6] && t[8].1 == titles[7]
    requires t[9].1 == titles[8] && t[10].1 == titles[8] && t[11].1 == titles[9]
    ensures DistinctValues(t) == titles
  {
    assert t[..0] == [] && titles[..0] == [];
    NewTitleStep(t, 0, titles, 0);
    NewTitleStep(t, 1, titles, 1);
    OldTitleStep(t, 2, titles, 2);
    NewTitleStep(t, 3, titles, 2);
    NewTitleStep(t, 4, titles, 3);
    NewTitleStep(t, 5, titles, 4);
    NewTitleStep(t, 6, titles, 5);
    NewTitleStep(t, 7, titles, 6);
    NewTitleStep(t, 8, titles, 7);
    NewTitleStep(t, 9, titles, 8);
    OldTitleStep(t, 10, titles, 9);
    NewTitleStep(t, 11, titles, 9);
    assert t[..12] == t && titles[..10] == titles;
  }

  /** The ten section titles, in table order: `lines`/`paths` share one
      section and so do `labels`/`themes`. */
  lemma SectionTitlesListed()
    ensures DistinctValues(SectionNames) == SectionTitles
  {
    SectionTitlesDistinct();
    SectionTableTitles();
    TitlesOfRows(SectionNames, SectionTitles);
  }

  /** The section table's rows carry the ten distinct section titles. */
  lemma SectionTitlesDistinct()
    ensures NoDuplicates(SectionTitles)
  {
  }

  lemma SectionTableTitles()
    ensures var t, titles := SectionNames, SectionTitles;
      && t[0].1 == titles[0] && t[1].1 == titles[1] && t[2].1 == titles[1]
      && t[3].1 == titles[2] && t[4].1 == titles[3] && t[5].1 == titles[4]
      && t[6].1 == titles[5] && t[7].1 == titles[6] && t[8].1 == titles[7]
      && t[9].1 == titles[8] && t[10].1 == titles[8] && t[11].1 == titles[9]
  {
  }

  /** With no earlier row carrying the same tag, a row's tag looks up that
      row's title. */
  lemma {:induction false} LookupRow(table: seq<(string, string)>, i: nat)
    requires i < |table|
    requires forall j :: 0 <= j < i ==> table[j].0 != table[i].0
    ensures Lookup(table, table[i].0) == Some(table[i].1)
  {
    if i > 0 {
      LookupRow(table[1..], i - 1);
    }
  }

  /** Every tag of the table maps to the title of its own row, and a tag
      outside the table maps to nothing. */
  lemma ClassifyTable(category: string)
    ensures forall i :: 0 <= i < |SectionNames| ==> Classify(SectionNames[i].0) == Some(SectionNames[i].1)
    ensures Classify(category).None? <==> forall i :: 0 <= i < |SectionNames| ==> SectionNames[i].0 != category
  {
    LookupSpec(SectionNames, category);
    SectionTagsDistinct();
    forall i | 0 <= i < |SectionNames|
      ensures Classify(SectionNames[i].0) == Some(SectionNames[i].1)
    {
      LookupRow(SectionNames, i);
    }
  }

  /** No two rows of the section table carry the same tag. */
  lemma SectionTagsDistinct()
    ensures forall i, j :: 0 <= i < j < |SectionNames| ==> SectionNames[i].0 != SectionNames[j].0
  {
  }

  /** `blocks` is a header and then a non-empty grid for each title of
      `shown`, in order, and nothing else. */
  predicate Shaped(blocks: seq<Block>, shown: seq<string>, images: seq<GalleryImage>) {
    && |blocks| == 2 * |shown|
    && forall k :: 0 <= k < |shown| ==>
         && blocks[2 * k] == Header(shown[k])
         && blocks[2 * k + 1] == Grid(InSection(images, shown[k]))
         && InSection(images, shown[k]) != []
  }

  lemma ShapedCons(t: string, blocks: seq<Block>, shown: seq<string>, images: seq<GalleryImage>)
    requires Shaped(blocks, shown, images)
    requires InSection(images, t) != []
    ensures Shaped([Header(t), Grid(InSection(images, t))] + blocks, [t] + shown, images)
  {
    var head := [Header(t), Grid(InSection(images, t))];
    var blocks' := head + blocks;
    var shown' := [t] + shown;
    forall k | 0 <= k < |shown'|
      ensures blocks'[2 * k] == Header(shown'[k])
      ensures blocks'[2 * k + 1] == Grid(InSection(images, shown'[k]))
      ensures InSection(images, shown'[k]) != []
    {
      if k > 0 {
        assert shown'[k] == shown[k - 1];
        assert blocks'[2 * k] == blocks[2 * (k - 1)];
        assert blocks'[2 * k + 1] == blocks[2 * (k - 1) + 1];
      }
    }
  }

  /** Every non-empty section contributes exactly a header and then the grid
      of its images, in the order of `titles`; empty sections contribute
      nothing. */
  lemma {:induction false} SectionBlocksShape(titles: seq<string>, images: seq<GalleryImage>)
    ensures Shaped(SectionBlocks(titles, images), NonEmptyTitles(titles, images), images)
  {
    if titles != [] {
      var t := titles[0];
      var rest := SectionBlocks(titles[1..], images);
      var shown := NonEmptyTitles(titles[1..], images);
      SectionBlocksShape(titles[1..], images);
      if InSection(images, t) != [] {
        assert SectionBlocks(titles, images) == [Header(t), Grid(InSection(images, t))] + rest;
        assert NonEmptyTitles(titles, images) == [t] + shown;
        ShapedCons(t, rest, shown, images);
      } else {
        assert SectionBlocks(titles, images) == [] + rest;
        assert [] + rest == rest;
        assert NonEmptyTitles(titles, images) == [] + shown;
        assert [] + shown == shown;
      }
    }
  }

  /** Grouping keeps encounter order: the images of a section drawn from two
      runs of images are those of the first run, then those of the second. */
  lemma {:induction false} InSectionAppend(a: seq<GalleryImage>, b: seq<GalleryImage>, title: string)
    ensures InSection(a + b, title) == InSection(a, title) + InSection(b, title)
  {
    if b != [] {
      var front := b[..|b| - 1];
      var last := b[|b| - 1];
      assert a + b == (a + front) + [last];
      assert b == front + [last];
      InSectionAppend(a, front, title);
      InSectionSnoc(a + front, last, title);
      InSectionSnoc(front, last, title);
    } else {
      assert a + b == a;
    }
  }

  /** The images whose section is one of `titles`, in encounter order. */
  function Within(images: seq<GalleryImage>, titles: seq<string>): seq<GalleryImage> {
    if images == [] then []
    else
      var last := images[|images| - 1];
      var section := Classify(last.category);
      Within(images[..|images| - 1], titles)
      + (if section.Some? && section.value in titles then [last] else [])
  }

  lemma {:induction false} WithinSplit(images: seq<GalleryImage>, t: string, ts: seq<string>)
    requires t !in ts
    ensures multiset(Within(images, [t] + ts)) ==
      multiset(InSection(images, t)) + multiset(Within(images, ts))
  {
    if images != [] {
      WithinSplit(images[..|images| - 1], t, ts);
    }
  }

  lemma {:induction false} WithinAll(images: seq<GalleryImage>)
    requires forall i :: 0 <= i < |images| ==> Classify(images[i].category).Some?
    ensures Within(images, SectionTitles) == images
  {
    if images != [] {
      var front := images[..|images| - 1];
      WithinAll(front);
      ClassifiedTitleListed(images[|images| - 1].category);
      assert images == front + [images[|images| - 1]];
    }
  }

  lemma {:induction false} GridImagesAppend(a: seq<Block>, b: seq<Block>)
    ensures GridImages(a + b) == GridImages(a) + GridImages(b)
  {
    if a != [] {
      assert (a + b)[1..] == a[1..] + b;
      GridImagesAppend(a[1..], b);
    } else {
      assert a + b == b;
    }
  }

  lemma GridImagesOfSection(t: string, imgs: seq<GalleryImage>)
    ensures GridImages([Header(t), Grid(imgs)]) == imgs
  {
    var blocks := [Header(t), Grid(imgs)];
    assert blocks[1..] == [Grid(imgs)];
    assert GridImages([Grid(imgs)]) == imgs + GridImages([]);
  }

  /** The grids of the first section, then those of the others. */
  lemma SectionGridImagesCons(titles: seq<string>, images: seq<GalleryImage>)
    requires titles != []
    ensures GridImages(SectionBlocks(titles, images)) ==
      InSection(images, titles[0]) + GridImages(SectionBlocks(titles[1..], images))
  {
    var t := titles[0];
    var imgs := InSection(images, t);
    var head: seq<Block> := if imgs == [] then [] else [Header(t), Grid(imgs)];
    var rest := SectionBlocks(titles[1..], images);
    assert SectionBlocks(titles, images) == head + rest;
    if imgs != [] {
      GridImagesOfSection(t, imgs);
    }
    assert GridImages(head) == imgs;
    GridImagesAppend(head, rest);
  }

  lemma {:induction false} SectionGridImages(titles: seq<string>, images: seq<GalleryImage>)
    requires NoDuplicates(titles)
    ensures multiset(GridImages(SectionBlocks(titles, images))) == multiset(Within(images, titles))
  {
    if titles == [] {
      WithinNone(images);
    } else {
      var t := titles[0];
      var imgs := InSection(images, t);
      var rest := GridImages(SectionBlocks(titles[1..], images));
      SectionGridImagesCons(titles, images);
      SectionGridImages(titles[1..], images);
      assert t !in titles[1..];
      assert titles == [t] + titles[1..];
      WithinSplit(images, t, titles[1..]);
      assert multiset(imgs + rest) == multiset(imgs) + multiset(rest);
    }
  }

  lemma {:induction false} WithinNone(images: seq<GalleryImage>)
    ensures Within(images, []) == []
  {
    if images != [] {
      WithinNone(images[..|images| - 1]);
    }
  }

  /** When every tag is known, the grids hold exactly the images: each image
      lands in one section, none is lost and none is repeated. */
  lemma GridsArePermutation(images: seq<GalleryImage>)
    requires forall i :: 0 <= i < |images| ==> Classify(images[i].category).Some?
    ensures multiset(GridImages(SectionBlocks(SectionTitles, images))) == multiset(images)
  {
    WithinAll(images);
    SectionTitlesDistinct();
    SectionGridImages(SectionTitles, images);
  }

  lemma {:induction false} GalleryStepsAppend(fs: seq<NotebookFile>, gs: seq<NotebookFile>)
    requires forall i :: 0 <= i < |fs| ==> EndsWith(fs[i].name, NotebookSuffix)
    requires forall i :: 0 <= i < |gs| ==> EndsWith(gs[i].name, NotebookSuffix)
    ensures forall i :: 0 <= i < |fs + gs| ==> EndsWith((fs + gs)[i].name, NotebookSuffix)
    ensures GallerySteps(fs + gs) == GallerySteps(fs) + GallerySteps(gs)
  {
    if fs != [] {
      assert (fs + gs)[1..] == fs[1..] + gs;
      GalleryStepsAppend(fs[1..], gs);
    } else {
      assert fs + gs == gs;
    }
  }

  lemma {:induction false} FirstRejectedAppend(a: seq<Step>, b: seq<Step>)
    requires FirstRejected(a) < |a|
    ensures FirstRejected(a + b) == FirstRejected(a)
  {
    if Accepted(a[0]) {
      assert (a + b)[1..] == a[1..] + b;
      FirstRejectedAppend(a[1..], b);
    }
  }

  /** A failure stops the scan: once the steps of the notebooks `fs` hold a
      rejected step, the notebooks after them are never visited, so the
      steps taken up to and including the failing one are the same. */
  lemma FailureHidesLaterNotebooks(fs: seq<NotebookFile>, gs: seq<NotebookFile>)
    requires forall i :: 0 <= i < |fs| ==> EndsWith(fs[i].name, NotebookSuffix)
    requires forall i :: 0 <= i < |gs| ==> EndsWith(gs[i].name, NotebookSuffix)
    requires FirstRejected(GallerySteps(fs)) < |GallerySteps(fs)|
    ensures (GalleryStepsAppend(fs, gs);
      var k := FirstRejected(GallerySteps(fs));
      && FirstRejected(GallerySteps(fs + gs)) == k
      && GallerySteps(fs + gs)[..k + 1] == GallerySteps(fs)[..k + 1])
  {
    GalleryStepsAppend(fs, gs);
    FirstRejectedAppend(GallerySteps(fs), GallerySteps(gs));
  }

  /** In the steps of one notebook only the last can be an abort, and an
      abort names that notebook: every failure while processing it is
      reported as that notebook's failure. */
  lemma NotebookAbortIsLast(f: NotebookFile)
    requires EndsWith(f.name, NotebookSuffix)
    ensures var steps := NotebookSteps(f);
      forall i :: 0 <= i < |steps| && steps[i].Abort? ==>
        i == |steps| - 1 && steps[i] == Abort(RelPath(f))
  {
    match f.content
    case Malformed =>
    case Parsed(cells) =>
      EntryStepsShape(f, Markers(cells));
  }

  /** Titles without images render nothing. */
  lemma {:induction false} NoImagesNoBlocks(titles: seq<string>, images: seq<GalleryImage>)
    requires forall k :: 0 <= k < |titles| ==> InSection(images, titles[k]) == []
    ensures SectionBlocks(titles, images) == []
  {
    if titles != [] {
      NoImagesNoBlocks(titles[1..], images);
    }
  }

  lemma InSectionPair(a: GalleryImage, b: GalleryImage, title: string)
    ensures InSection([a, b], title) ==
      (if InSectionOf(a, title) then [a] else []) + (if InSectionOf(b, title) then [b] else [])
  {
    InSectionSnoc([a], b, title);
    InSectionSnoc([], a, title);
    assert [a] + [b] == [a, b];
    assert [] + [a] == [a];
  }

  /** One non-empty section among empty ones renders as its header and grid. */
  lemma {:induction false} OneNonEmpty(titles: seq<string>, images: seq<GalleryImage>, q: nat)
    requires q < |titles|
    requires forall k :: 0 <= k < |titles| && k != q ==> InSection(images, titles[k]) == []
    requires InSection(images, titles[q]) != []
    ensures SectionBlocks(titles, images) == [Header(titles[q]), Grid(InSection(images, titles[q]))]
  {
    var tail := titles[1..];
    var rest := SectionBlocks(tail, images);
    if q == 0 {
      forall k | 0 <= k < |tail|
        ensures InSection(images, tail[k]) == []
      {
        assert tail[k] == titles[k + 1];
      }
      NoImagesNoBlocks(tail, images);
      assert SectionBlocks(titles, images) == [Header(titles[0]), Grid(InSection(images, titles[0]))] + rest;
    } else {
      forall k | 0 <= k < |tail| && k != q - 1
        ensures InSection(images, tail[k]) == []
      {
        assert tail[k] == titles[k + 1];
      }
      assert tail[q - 1] == titles[q];
      OneNonEmpty(tail, images, q - 1);
      assert InSection(images, titles[0]) == [];
      assert SectionBlocks(titles, images) == [] + rest;
    }
  }

  /** Two non-empty sections among empty ones render in the order of their
      titles, whatever the order of the images. */
  lemma {:induction false} TwoNonEmpty(titles: seq<string>, images: seq<GalleryImage>, p: nat, q: nat)
    requires p < q < |titles|
    requires forall k :: 0 <= k < |titles| && k != p && k != q ==> InSection(images, titles[k]) == []
    requires InSection(images, titles[p]) != [] && InSection(images, titles[q]) != []
    ensures SectionBlocks(titles, images) ==
      [Header(titles[p]), Grid(InSection(images, titles[p])), Header(titles[q]), Grid(InSection(images, titles[q]))]
  {
    var tail := titles[1..];
    var rest := SectionBlocks(tail, images);
    assert tail[q - 1] == titles[q];
    if p == 0 {
      forall k | 0 <= k < |tail| && k != q - 1
        ensures InSection(images, tail[k]) == []
      {
        assert tail[k] == titles[k + 1];
      }
      OneNonEmpty(tail, images, q - 1);
      assert SectionBlocks(titles, images) == [Header(titles[0]), Grid(InSection(images, titles[0]))] + rest;
    } else {
      forall k | 0 <= k < |tail| && k != p - 1 && k != q - 1
        ensures InSection(images, tail[k]) == []
      {
        assert tail[k] == titles[k + 1];
      }
      assert tail[p - 1] == titles[p];
      TwoNonEmpty(tail, images, p - 1, q - 1);
      assert InSection(images, titles[0]) == [];
      assert SectionBlocks(titles, images) == [] + rest;
    }
  }

  /** Section order comes from the table, not from encounter order: a bar
      chart found before a scatter plot is still shown after it. */
  lemma PointsBeforeBars(bars: GalleryImage, points: GalleryImage)
    requires bars.category == "bars" && points.category == "points"
    ensures SectionBlocks(SectionTitles, [bars, points]) ==
      [Header("Scatter Plots"), Grid([points]), Header("Bar Plots"), Grid([bars])]
  {
    ClassifyTable(points.category);
    assert SectionNames[0] == ("points", "Scatter Plots");
    assert SectionNames[4] == ("bars", "Bar Plots");
    var images := [bars, points];
    var t := SectionTitles;
    forall k | 0 <= k < |t|
      ensures InSection(images, t[k]) ==
        (if k == 0 then [points] else if k == 3 then [bars] else [])
    {
      InSectionPair(bars, points, t[k]);
    }
    TwoNonEmpty(t, images, 0, 3);
  }
}

=== FILE: slug.dfy ===
/**
  The anchor sanitiser `sanitize_filename`: lower-case the title, then apply
  three regular-expression substitutions in order.

    1. `[^\w\s]|` -> ""   delete every character that is neither a word
                          character nor whitespace (hyphens included);
    2. `\s+`      -> " "  every maximal run of whitespace becomes one space;
    3. `[^\w-]`   -> "-"  every remaining non-word, non-hyphen character
                          (by now only spaces) becomes a hyphen.
*/
module Slug {
  import opened Chars

  /** A character the sanitiser can emit: lower-case word character or hyphen. */
  predicate IsSlugChar(c: char) {
    (IsWordChar(c) && !('A' <= c <= 'Z')) || c == '-'
  }

  /** Some character of `s` is whitespace. */
  predicate HasSpace(s: string) {
    exists i :: 0 <= i < |s| && IsSpace(s[i])
  }

  /** No two neighbouring characters of `s` are both whitespace. */
  predicate NoAdjacentSpaces(s: string) {
    forall i :: 0 <= i < |s| - 1 ==> !(IsSpace(s[i]) && IsSpace(s[i + 1]))
  }

  lemma HasSpaceCons(s: string)
    requires s != []
    ensures HasSpace(s) <==> IsSpace(s[0]) || HasSpace(s[1..])
  {
    if HasSpace(s) && !IsSpace(s[0]) {
      var i :| 0 <= i < |s| && IsSpace(s[i]);
      assert IsSpace(s[1..][i - 1]);
    }
    if HasSpace(s[1..]) {
      var i :| 0 <= i < |s[1..]| && IsSpace(s[1..][i]);
      assert IsSpace(s[i + 1]);
    }
  }

  /** Pass 1. The empty alternative of the pattern replaces empty matches by
      the empty string, which changes nothing. */
  function DropPunctuation(s: string): string
  {
    if s == [] then []
    else (if IsWordChar(s[0]) || IsSpace(s[0]) then [s[0]] else []) + DropPunctuation(s[1..])
  }

  /** Deleting punctuation leaves only word characters and whitespace, all
      taken from the input. */
  lemma {:induction false} DropPunctuationAlphabet(s: string)
    ensures forall c :: c in DropPunctuation(s) ==> (IsWordChar(c) || IsSpace(c)) && c in s
  {
    if s != [] {
      DropPunctuationAlphabet(s[1..]);
    }
  }

  /** Deleting punctuation keeps every word character, in order, and keeps
      whitespace. */
  lemma {:induction false} DropPunctuationKeeps(s: string)
    ensures WordChars(DropPunctuation(s)) == WordChars(s)
    ensures HasSpace(DropPunctuation(s)) <==> HasSpace(s)
  {
    if s != [] {
      DropPunctuationKeeps(s[1..]);
      var rest := DropPunctuation(s[1..]);
      HasSpaceCons(s);
      if IsWordChar(s[0]) || IsSpace(s[0]) {
        assert DropPunctuation(s) == [s[0]] + rest;
        WordCharsAppend([s[0]], rest);
        HasSpaceCons([s[0]] + rest);
        assert ([s[0]] + rest)[1..] == rest;
      } else {
        assert DropPunctuation(s) == rest;
      }
      WordCharsAppend([s[0]], s[1..]);
      assert s == [s[0]] + s[1..];
    }
  }

  /** The suffix of `s` after its leading whitespace. */
  function SkipSpaces(s: string): (r: string)
    ensures |r| <= |s|
    ensures r == [] || !IsSpace(r[0])
  {
    if s != [] && IsSpace(s[0]) then SkipSpaces(s[1..]) else s
  }

  /** What is left after the leading whitespace is a suffix of the input. */
  lemma {:induction false} SkipSpacesSuffix(s: string)
    ensures SkipSpaces(s) == s[|s| - |SkipSpaces(s)|..]
  {
    if s != [] && IsSpace(s[0]) {
      SkipSpacesSuffix(s[1..]);
    }
  }

  /** Pass 2: leftmost-longest replacement of `\s+` by a single space. */
  function CollapseSpaces(s: string): (r: string)
    ensures r != [] ==> s != [] && (IsSpace(r[0]) ==> IsSpace(s[0]))
    decreases |s|
  {
    if s == [] then []
    else if IsSpace(s[0]) then " " + CollapseSpaces(SkipSpaces(s[1..]))
    else [s[0]] + CollapseSpaces(s[1..])
  }

  /** Collapsing emits spaces and the input's non-whitespace characters only. */
  lemma {:induction false} CollapseAlphabet(s: string)
    ensures forall c :: c in CollapseSpaces(s) ==> c == ' ' || (c in s && !IsSpace(c))
    decreases |s|
  {
    if s != [] {
      if IsSpace(s[0]) {
        var t := SkipSpaces(s[1..]);
        CollapseAlphabet(t);
        SkipSpacesSuffix(s[1..]);
        assert t == s[1..][|s[1..]| - |t|..];
        assert forall c :: c in t ==> c in s;
      } else {
        CollapseAlphabet(s[1..]);
      }
    }
  }

  /** Collapsing never yields two whitespace characters in a row. */
  lemma {:induction false} CollapseNoAdjacentSpaces(s: string)
    ensures NoAdjacentSpaces(CollapseSpaces(s))
    decreases |s|
  {
    if s != [] {
      if IsSpace(s[0]) {
        var t := SkipSpaces(s[1..]);
        CollapseNoAdjacentSpaces(t);
        assert CollapseSpaces(s) == " " + CollapseSpaces(t);
      } else {
        CollapseNoAdjacentSpaces(s[1..]);
        assert CollapseSpaces(s) == [s[0]] + CollapseSpaces(s[1..]);
      }
    }
  }

  /** Leading whitespace holds no word characters. */
  lemma {:induction false} SkipSpacesWordChars(s: string)
    ensures WordChars(SkipSpaces(s)) == WordChars(s)
  {
    if s == [] || !IsSpace(s[0]) {
      assert SkipSpaces(s) == s;
    } else {
      SkipSpacesWordChars(s[1..]);
      var w := WordChars(s[1..]);
      assert SkipSpaces(s) == SkipSpaces(s[1..]);
      assert !IsWordChar(s[0]);
      assert WordChars(s) == [] + w;
      assert [] + w == w;
    }
  }

  /** Collapsing keeps the word characters, in order. */
  lemma {:induction false} CollapseKeepsWords(s: string)
    ensures WordChars(CollapseSpaces(s)) == WordChars(s)
    decreases |s|
  {
    if s != [] {
      var w := WordChars(s[1..]);
      if IsSpace(s[0]) {
        var t := SkipSpaces(s[1..]);
        var c := CollapseSpaces(t);
        CollapseKeepsWords(t);
        SkipSpacesWordChars(s[1..]);
        assert CollapseSpaces(s) == " " + c;
        assert WordChars(" " + c) == [] + WordChars(c) by {
          assert (" " + c)[1..] == c;
        }
        assert WordChars(s) == [] + w;
        assert [] + w == w;
      } else {
        var c := CollapseSpaces(s[1..]);
        var h := if IsWordChar(s[0]) then [s[0]] else [];
        CollapseKeepsWords(s[1..]);
        assert CollapseSpaces(s) == [s[0]] + c;
        assert WordChars([s[0]] + c) == h + WordChars(c) by {
          assert ([s[0]] + c)[0] == s[0];
          assert ([s[0]] + c)[1..] == c;
        }
        assert WordChars(s) == h + w;
      }
    }
  }

  /** Collapsing keeps whitespace present exactly when the input has some. */
  lemma {:induction false} CollapseKeepsSpace(s: string)
    ensures HasSpace(CollapseSpaces(s)) <==> HasSpace(s)
    decreases |s|
  {
    if s != [] {
      HasSpaceCons(s);
      var r := CollapseSpaces(s);
      if IsSpace(s[0]) {
        assert r == " " + CollapseSpaces(SkipSpaces(s[1..]));
        assert IsSpace(r[0]);
      } else {
        var c := CollapseSpaces(s[1..]);
        CollapseKeepsSpace(s[1..]);
        assert r == [s[0]] + c;
        HasSpaceCons(r);
        assert r[1..] == c;
      }
    }
  }

  /** Collapsing keeps the word characters, in order, and keeps whitespace. */
  lemma CollapseKeeps(s: string)
    ensures WordChars(CollapseSpaces(s)) == WordChars(s)
    ensures HasSpace(CollapseSpaces(s)) <==> HasSpace(s)
  {
    CollapseKeepsWords(s);
    CollapseKeepsSpace(s);
  }

  /** Pass 3: every character other than a word character or `-` becomes `-`. */
  function DashNonWords(s: string): (r: string)
    ensures |r| == |s|
    ensures forall i :: 0 <= i < |s| ==> r[i] == (if IsWordChar(s[i]) || s[i] == '-' then s[i] else '-')
  {
    seq(|s|, i requires 0 <= i < |s| => if IsWordChar(s[i]) || s[i] == '-' then s[i] else '-')
  }

  /** `sanitize_filename`: only lower-case word characters and hyphens survive,
      and a hyphen stands exactly where a collapsed whitespace run stood. */
  function Sanitize(s: string): (r: string)
    ensures forall i :: 0 <= i < |r| ==> IsSlugChar(r[i])
  {
    DropPunctuationAlphabet(Lower(s));
    CollapseAlphabet(DropPunctuation(Lower(s)));
    DashNonWords(CollapseSpaces(DropPunctuation(Lower(s))))
  }

  /** Replacing non-word characters by hyphens leaves the word characters. */
  lemma {:induction false} DashKeepsWordChars(s: string)
    ensures WordChars(DashNonWords(s)) == WordChars(s)
  {
    if s != [] {
      DashKeepsWordChars(s[1..]);
      assert DashNonWords(s) == [DashNonWords(s)[0]] + DashNonWords(s[1..]);
      WordCharsAppend([DashNonWords(s)[0]], DashNonWords(s[1..]));
      WordCharsAppend([s[0]], s[1..]);
      assert s == [s[0]] + s[1..];
    }
  }

  lemma LowerHasSpace(s: string)
    ensures HasSpace(Lower(s)) <==> HasSpace(s)
  {
    if HasSpace(s) {
      var i :| 0 <= i < |s| && IsSpace(s[i]);
      assert IsSpace(Lower(s)[i]);
    }
    if HasSpace(Lower(s)) {
      var i :| 0 <= i < |s| && IsSpace(Lower(s)[i]);
      assert IsSpace(s[i]);
    }
  }

  /** Hyphens of the slug sit exactly on the whitespace of the collapsed text. */
  lemma SanitizeHyphenPositions(s: string)
    ensures var c := CollapseSpaces(DropPunctuation(Lower(s)));
      |Sanitize(s)| == |c| &&
      forall i :: 0 <= i < |c| ==> (Sanitize(s)[i] == '-' <==> IsSpace(c[i]))
  {
    var c := CollapseSpaces(DropPunctuation(Lower(s)));
    DropPunctuationAlphabet(Lower(s));
    CollapseAlphabet(DropPunctuation(Lower(s)));
    forall i | 0 <= i < |c|
      ensures Sanitize(s)[i] == '-' <==> IsSpace(c[i])
    {
      assert c[i] in c;
    }
  }

  /** The slug holds the word characters of the lower-cased title, in order:
      removing its hyphens gives exactly those characters. */
  lemma SanitizeKeepsWords(s: string)
    ensures WordChars(Sanitize(s)) == WordChars(Lower(s))
  {
    var kept := DropPunctuation(Lower(s));
    DropPunctuationKeeps(Lower(s));
    CollapseKeeps(kept);
    DashKeepsWordChars(CollapseSpaces(kept));
  }

  /** A hyphen appears in the slug exactly when the title holds whitespace:
      hyphens already in the title are deleted, so every hyphen of the slug
      comes from a whitespace run. */
  lemma SanitizeHyphenIffSpace(s: string)
    ensures '-' in Sanitize(s) <==> HasSpace(s)
  {
    var kept := DropPunctuation(Lower(s));
    var c := CollapseSpaces(kept);
    LowerHasSpace(s);
    DropPunctuationKeeps(Lower(s));
    CollapseKeeps(kept);
    SanitizeHyphenPositions(s);
    if HasSpace(c) {
      var i :| 0 <= i < |c| && IsSpace(c[i]);
      assert Sanitize(s)[i] == '-';
    }
    if '-' in Sanitize(s) {
      var i :| 0 <= i < |Sanitize(s)| && Sanitize(s)[i] == '-';
      assert IsSpace(c[i]);
    }
  }

  /** No two hyphens of a slug are adjacent. */
  lemma SanitizeNoDoubleHyphen(s: string)
    ensures forall i :: 0 <= i < |Sanitize(s)| - 1 ==> !(Sanitize(s)[i] == '-' && Sanitize(s)[i + 1] == '-')
  {
    var c := CollapseSpaces(DropPunctuation(Lower(s)));
    CollapseNoAdjacentSpaces(DropPunctuation(Lower(s)));
    SanitizeHyphenPositions(s);
  }

  /** On a string of word characters, every pass is the identity. */
  lemma {:induction false} PassesFixWords(s: string)
    requires forall i :: 0 <= i < |s| ==> IsWordChar(s[i]) && !('A' <= s[i] <= 'Z')
    ensures Lower(s) == s
    ensures DropPunctuation(s) == s
    ensures CollapseSpaces(s) == s
    ensures DashNonWords(s) == s
  {
    if s != [] {
      PassesFixWords(s[1..]);
      assert s == [s[0]] + s[1..];
    }
  }

  /** On slug characters, deleting punctuation deletes exactly the hyphens. */
  lemma {:induction false} DropPunctuationOfSlug(s: string)
    requires forall i :: 0 <= i < |s| ==> IsSlugChar(s[i])
    ensures DropPunctuation(s) == WordChars(s)
  {
    if s != [] {
      DropPunctuationOfSlug(s[1..]);
    }
  }

  /** Sanitising a slug again deletes its hyphens and keeps the rest. */
  lemma SanitizeTwice(s: string)
    ensures Sanitize(Sanitize(s)) == WordChars(Sanitize(s))
  {
    var x := Sanitize(s);
    assert Lower(x) == x;
    DropPunctuationOfSlug(x);
    var w := WordChars(x);
    WordCharsMembership(x);
    assert forall i :: 0 <= i < |w| ==> IsWordChar(w[i]) && !('A' <= w[i] <= 'Z') by {
      forall i | 0 <= i < |w|
        ensures IsWordChar(w[i]) && !('A' <= w[i] <= 'Z')
      {
        assert w[i] in w;
        assert w[i] in x;
      }
    }
    PassesFixWords(w);
  }

  /** The sanitiser is idempotent on an input exactly when its slug has no
      hyphen, that is, exactly when the input holds no whitespace. */
  lemma SanitizeIdempotentIff(s: string)
    ensures Sanitize(Sanitize(s)) == Sanitize(s) <==> !HasSpace(s)
  {
    var x := Sanitize(s);
    SanitizeTwice(s);
    SanitizeHyphenIffSpace(s);
    if '-' in x {
      WordCharsMembership(x);
      assert '-' !in WordChars(x);
    } else {
      assert forall i :: 0 <= i < |x| ==> IsWordChar(x[i]) && !('A' <= x[i] <= 'Z');
      PassesFixWords(x);
      assert Sanitize(x) == x;
    }
  }

  /** Every character of `s` is a word character. */
  predicate AllWordChars(s: string) {
    forall i :: 0 <= i < |s| ==> IsWordChar(s[i])
  }

  /** Every character of `s` is whitespace, and there is at least one. */
  predicate IsSpaceRun(s: string) {
    s != [] && forall i :: 0 <= i < |s| ==> IsSpace(s[i])
  }

  lemma {:induction false} DropPunctuationAppend(a: string, b: string)
    ensures DropPunctuation(a + b) == DropPunctuation(a) + DropPunctuation(b)
  {
    if a == [] {
      assert a + b == b;
    } else {
      var h := if IsWordChar(a[0]) || IsSpace(a[0]) then [a[0]] else [];
      var x, y := DropPunctuation(a[1..]), DropPunctuation(b);
      assert (a + b)[0] == a[0];
      assert (a + b)[1..] == a[1..] + b;
      DropPunctuationAppend(a[1..], b);
      assert DropPunctuation(a + b) == h + (x + y);
      assert DropPunctuation(a) == h + x;
      assert h + (x + y) == (h + x) + y;
    }
  }

  lemma {:induction false} DropPunctuationFixes(s: string)
    requires forall i :: 0 <= i < |s| ==> IsWordChar(s[i]) || IsSpace(s[i])
    ensures DropPunctuation(s) == s
  {
    if s != [] {
      DropPunctuationFixes(s[1..]);
      assert s == [s[0]] + s[1..];
    }
  }

  lemma {:induction false} SkipSpaceRun(ws: string, rest: string)
    requires forall i :: 0 <= i < |ws| ==> IsSpace(ws[i])
    requires rest == [] || !IsSpace(rest[0])
    ensures SkipSpaces(ws + rest) == rest
  {
    if ws == [] {
      assert ws + rest == rest;
    } else {
      assert (ws + rest)[1..] == ws[1..] + rest;
      SkipSpaceRun(ws[1..], rest);
    }
  }

  lemma {:induction false} CollapseWordPrefix(w: string, rest: string)
    requires AllWordChars(w)
    ensures CollapseSpaces(w + rest) == w + CollapseSpaces(rest)
  {
    if w == [] {
      assert w + rest == rest;
    } else {
      assert (w + rest)[1..] == w[1..] + rest;
      CollapseWordPrefix(w[1..], rest);
    }
  }

  lemma CollapseSpaceRun(ws: string, rest: string)
    requires IsSpaceRun(ws)
    requires rest == [] || !IsSpace(rest[0])
    ensures CollapseSpaces(ws + rest) == " " + CollapseSpaces(rest)
  {
    assert (ws + rest)[1..] == ws[1..] + rest;
    SkipSpaceRun(ws[1..], rest);
  }

  lemma LowerWords(w: string)
    requires AllWordChars(w)
    ensures AllWordChars(Lower(w))
  {
  }

  lemma LowerSpaceRun(ws: string)
    requires IsSpaceRun(ws)
    ensures IsSpaceRun(Lower(ws))
  {
  }

  lemma CollapseSpacedWords(l1: string, lws: string, l2: string)
    requires AllWordChars(l1) && AllWordChars(l2) && IsSpaceRun(lws)
    ensures CollapseSpaces(l1 + lws + l2) == l1 + " " + l2
  {
    var tail := lws + l2;
    assert l1 + lws + l2 == l1 + tail;
    CollapseWordPrefix(l1, tail);
    assert CollapseSpaces(l1 + tail) == l1 + CollapseSpaces(tail);
    CollapseSpaceRun(lws, l2);
    assert CollapseSpaces(tail) == " " + CollapseSpaces(l2);
    CollapseWordPrefix(l2, []);
    assert l2 + [] == l2;
    assert CollapseSpaces(l2) == l2 + CollapseSpaces([]);
    assert l2 + CollapseSpaces([]) == l2;
    assert l1 + (" " + l2) == l1 + " " + l2;
  }

  /** Pass 3 keeps word characters and turns a single space into a hyphen. */
  lemma DashSpacedWord(lw: string, c: string)
    requires AllWordChars(lw)
    ensures DashNonWords(lw + " " + c) == lw + "-" + DashNonWords(c)
  {
    var l, r := DashNonWords(lw + " " + c), lw + "-" + DashNonWords(c);
    assert |l| == |r|;
    forall k | 0 <= k < |l|
      ensures l[k] == r[k]
    {
      if k < |lw| {
        assert (lw + " " + c)[k] == lw[k];
      } else if k == |lw| {
        assert (lw + " " + c)[k] == ' ';
      } else {
        assert (lw + " " + c)[k] == c[k - |lw| - 1];
      }
    }
  }

  /** Pass 1 keeps a leading word character. */
  lemma DropPunctuationWordHead(s: string)
    requires s != [] && IsWordChar(s[0])
    ensures DropPunctuation(s) != [] && DropPunctuation(s)[0] == s[0]
  {
    assert DropPunctuation(s) == [s[0]] + DropPunctuation(s[1..]);
  }

  /** A whitespace run between a word and text starting with a word
      character becomes exactly one hyphen: the word, the run, and then that
      text give the lower-cased word, one hyphen, and the slug of the rest. */
  lemma SanitizeSpaceRun(w: string, ws: string, rest: string)
    requires AllWordChars(w) && IsSpaceRun(ws)
    requires rest != [] && IsWordChar(rest[0])
    ensures Sanitize(w + ws + rest) == Lower(w) + "-" + Sanitize(rest)
  {
    var lw, lws, lr := Lower(w), Lower(ws), Lower(rest);
    LowerWords(w);
    LowerSpaceRun(ws);
    assert Lower(w + ws + rest) == lw + lws + lr by {
      LowerAppend(w, ws);
      LowerAppend(w + ws, rest);
    }
    var dr := DropPunctuation(lr);
    assert DropPunctuation(lw + lws + lr) == lw + (lws + dr) by {
      DropPunctuationAppend(lw + lws, lr);
      DropPunctuationAppend(lw, lws);
      DropPunctuationFixes(lw);
      DropPunctuationFixes(lws);
      assert lw + lws + dr == lw + (lws + dr);
    }
    DropPunctuationWordHead(lr);
    assert !IsSpace(dr[0]);
    var cr := CollapseSpaces(dr);
    assert CollapseSpaces(lw + (lws + dr)) == lw + (" " + cr) by {
      CollapseWordPrefix(lw, lws + dr);
      CollapseSpaceRun(lws, dr);
    }
    assert lw + (" " + cr) == lw + " " + cr;
    DashSpacedWord(lw, cr);
  }

  /** Two words separated by a whitespace run of any length: the run becomes
      exactly one hyphen between the lower-cased words. */
  lemma SanitizeSpacedWords(w1: string, ws: string, w2: string)
    requires AllWordChars(w1) && AllWordChars(w2) && IsSpaceRun(ws)
    ensures Sanitize(w1 + ws + w2) == Lower(w1) + "-" + Lower(w2)
  {
    var l1, lws, l2 := Lower(w1), Lower(ws), Lower(w2);
    LowerWords(w1);
    LowerWords(w2);
    LowerSpaceRun(ws);
    var kept := l1 + lws + l2;
    assert Lower(w1 + ws + w2) == kept by {
      LowerAppend(w1, ws);
      LowerAppend(w1 + ws, w2);
    }
    assert DropPunctuation(kept) == kept by {
      DropPunctuationFixes(kept);
    }
    assert CollapseSpaces(kept) == l1 + " " + l2 by {
      CollapseSpacedWords(l1, lws, l2);
    }
    assert DashNonWords(l1 + " " + l2) == l1 + "-" + l2;
  }

  lemma DropHyphenBetween(l1: string, l2: string)
    requires AllWordChars(l1) && AllWordChars(l2)
    ensures DropPunctuation(l1 + "-" + l2) == l1 + l2
  {
    var d: string := "-";
    DropPunctuationAppend(l1 + d, l2);
    assert DropPunctuation(l1 + d + l2) == DropPunctuation(l1 + d) + DropPunctuation(l2);
    DropPunctuationAppend(l1, d);
    assert DropPunctuation(d) == [] by {
      assert !IsWordChar(d[0]) && !IsSpace(d[0]);
      assert d[1..] == [];
    }
    assert DropPunctuation(l1 + d) == DropPunctuation(l1) + [];
    DropPunctuationFixes(l1);
    DropPunctuationFixes(l2);
    assert l1 + [] == l1;
  }

  /** Two words joined by a hyphen: the hyphen is deleted. */
  lemma SanitizeHyphenatedWords(w1: string, w2: string)
    requires AllWordChars(w1) && AllWordChars(w2)
    ensures Sanitize(w1 + "-" + w2) == Lower(w1) + Lower(w2)
  {
    var l1, l2 := Lower(w1), Lower(w2);
    LowerWords(w1);
    LowerWords(w2);
    assert Lower(w1 + "-" + w2) == l1 + "-" + l2 by {
      LowerAppend(w1, "-");
      LowerAppend(w1 + "-", w2);
      assert Lower("-") == "-";
    }
    assert DropPunctuation(l1 + "-" + l2) == l1 + l2 by {
      DropHyphenBetween(l1, l2);
    }
    assert CollapseSpaces(l1 + l2) == l1 + l2 by {
      CollapseWordPrefix(l1 + l2, []);
      assert l1 + l2 + [] == l1 + l2;
    }
    assert DashNonWords(l1 + l2) == l1 + l2;
  }

  lemma SanitizeHyphenParts()
    ensures Sanitize("my" + "-" + "plot") == "myplot"
  {
    SanitizeHyphenatedWords("my", "plot");
    assert Lower("my") == "my";
    assert Lower("plot") == "plot";
  }

  /** A hyphen in the input is deleted, so the sanitiser is not idempotent. */
  lemma SanitizeNotIdempotent()
    ensures Sanitize("my-plot") == "myplot"
    ensures Sanitize(Sanitize("My Plot")) != Sanitize("My Plot")
  {
    SanitizeHyphenParts();
    assert "my-plot" == "my" + "-" + "plot";
    assert IsSpace("My Plot"[2]);
    SanitizeIdempotentIff("My Plot");
  }
}

=== FILE: titles.dfy ===
/**
  The title resolver `get_gallery_image_title`.

  The markdown cells before a marker are visited nearest first; the lines of
  each cell are visited in their own order. The first `### ` line wins at
  once; otherwise the last `# ` line visited is the fallback; otherwise the
  title is empty. Either heading is stripped of `#` and space characters at
  both ends.
*/
module Titles {
  import opened Notebooks

  /** The ASCII line boundaries of `str.splitlines`: line feed, vertical tab,
      form feed, carriage return and the separators 0x1c-0x1e. */
  predicate IsLineBreak(c: char) {
    var n := c as int;
    (10 <= n <= 13) || (28 <= n <= 30)
  }

  predicate NoLineBreak(s: string) {
    forall i :: 0 <= i < |s| ==> !IsLineBreak(s[i])
  }

  /** The index of the first line boundary of `s`, or `|s|` if there is none. */
  function LineEnd(s: string): (k: nat)
    ensures k <= |s|
    ensures NoLineBreak(s[..k])
    ensures k < |s| ==> IsLineBreak(s[k])
  {
    if s == [] || IsLineBreak(s[0]) then 0 else 1 + LineEnd(s[1..])
  }

  /** A carriage return followed by a line feed is one boundary. */
  function BreakWidth(s: string, k: nat): (w: nat)
    requires k < |s|
    ensures 1 <= w <= 2 && k + w <= |s|
  {
    if s[k] == '\r' && k + 1 < |s| && s[k + 1] == '\n' then 2 else 1
  }

  /** `str.splitlines()`: the lines without their boundaries; a final boundary
      does not open an empty last line. */
  function SplitLines(s: string): (lines: seq<string>)
    ensures forall k :: 0 <= k < |lines| ==> NoLineBreak(lines[k])
    decreases |s|
  {
    if s == [] then []
    else
      var k := LineEnd(s);
      if k == |s| then [s] else [s[..k]] + SplitLines(s[k + BreakWidth(s, k)..])
  }

  /** Each line followed by a line feed. */
  function Terminated(lines: seq<string>): string {
    if lines == [] then [] else lines[0] + "\n" + Terminated(lines[1..])
  }

  /** Splitting undoes terminating each line with a line feed. */
  lemma {:induction false} SplitTerminated(lines: seq<string>)
    requires forall k :: 0 <= k < |lines| ==> NoLineBreak(lines[k])
    ensures SplitLines(Terminated(lines)) == lines
  {
    if lines != [] {
      SplitTerminated(lines[1..]);
      SplitFirstLine(lines[0], Terminated(lines[1..]));
    }
  }

  /** A line ended by a line feed comes off first. */
  lemma SplitFirstLine(line: string, rest: string)
    requires NoLineBreak(line)
    ensures SplitLines(line + "\n" + rest) == [line] + SplitLines(rest)
  {
    var s := line + "\n" + rest;
    assert s == line + ("\n" + rest);
    LineEndOf(line, "\n" + rest);
    var k := |line|;
    assert s[k] == '\n';
    assert BreakWidth(s, k) == 1;
    assert SplitLines(s) == [s[..k]] + SplitLines(s[k + 1..]);
    assert s[..k] == line;
    assert s[k + 1..] == rest;
  }

  lemma {:induction false} LineEndOf(line: string, rest: string)
    requires NoLineBreak(line)
    requires rest == [] || IsLineBreak(rest[0])
    ensures LineEnd(line + rest) == |line|
  {
    if line == [] {
      assert line + rest == rest;
    } else {
      assert (line + rest)[1..] == line[1..] + rest;
      LineEndOf(line[1..], rest);
    }
  }

  /** A non-empty text with no boundary is one line. */
  lemma SingleLine(s: string)
    requires s != [] && NoLineBreak(s)
    ensures SplitLines(s) == [s]
  {
    LineEndOf(s, []);
    assert s + [] == s;
  }

  /** The characters `str.strip("# ")` removes. */
  predicate IsStripChar(c: char) {
    c == '#' || c == ' '
  }

  function StripLeft(s: string): (r: string)
    ensures |r| <= |s| && r == s[|s| - |r|..]
    ensures forall k :: 0 <= k < |s| - |r| ==> IsStripChar(s[k])
    ensures r == [] || !IsStripChar(r[0])
  {
    if s != [] && IsStripChar(s[0]) then StripLeft(s[1..]) else s
  }

  function StripRight(s: string): (r: string)
    ensures |r| <= |s| && r == s[..|r|]
    ensures forall k :: |r| <= k < |s| ==> IsStripChar(s[k])
    ensures r == [] || !IsStripChar(r[|r| - 1])
  {
    if s != [] && IsStripChar(s[|s| - 1]) then StripRight(s[..|s| - 1]) else s
  }

  /** `line.strip("# ")`: the longest middle slice that neither starts nor
      ends with `#` or space, after cutting only such characters. */
  function Strip(s: string): (r: string)
    ensures exists i, j ::
      (0 <= i <= j <= |s| && r == s[i..j]
       && (forall k :: 0 <= k < i ==> IsStripChar(s[k]))
       && (forall k :: j <= k < |s| ==> IsStripChar(s[k])))
    ensures r == [] || (!IsStripChar(r[0]) && !IsStripChar(r[|r| - 1]))
  {
    var left := StripLeft(s);
    var r := StripRight(left);
    var i := |s| - |left|;
    assert r == s[i..i + |r|];
    r
  }

  predicate IsLevel3(line: string) {
    "### " <= line
  }

  predicate IsLevel1(line: string) {
    "# " <= line
  }

  /** The lines of a markdown cell; other cells contribute none. */
  function CellLines(c: Cell): seq<string> {
    if c.kind == Markdown then SplitLines(c.source) else []
  }

  /** The lines in visiting order: cells from the last to the first, the lines
      of each cell from its first to its last. */
  function MarkdownLines(cells: seq<Cell>): seq<string> {
    if cells == [] then []
    else CellLines(cells[|cells| - 1]) + MarkdownLines(cells[..|cells| - 1])
  }

  /** The loop over the lines, with `header` the fallback seen so far. */
  function ScanTitle(lines: seq<string>, header: string): string {
    if lines == [] then header
    else if IsLevel3(lines[0]) then Strip(lines[0])
    else ScanTitle(lines[1..], if IsLevel1(lines[0]) then Strip(lines[0]) else header)
  }

  /** `get_gallery_image_title(cells)`. It never fails. */
  function GalleryImageTitle(cells: seq<Cell>): string {
    ScanTitle(MarkdownLines(cells), "")
  }

  /** The index of the first level-3 heading, or `|lines|`. */
  function FirstLevel3(lines: seq<string>): (k: nat)
    ensures k <= |lines|
    ensures forall i :: 0 <= i < k ==> !IsLevel3(lines[i])
    ensures k < |lines| ==> IsLevel3(lines[k])
  {
    if lines == [] || IsLevel3(lines[0]) then 0 else 1 + FirstLevel3(lines[1..])
  }

  /** The index of the last level-1 heading, or -1. */
  function LastLevel1(lines: seq<string>): (k: int)
    ensures -1 <= k < |lines|
    ensures forall i :: k < i < |lines| ==> !IsLevel1(lines[i])
    ensures k >= 0 ==> IsLevel1(lines[k])
  {
    if lines == [] then -1
    else if IsLevel1(lines[|lines| - 1]) then |lines| - 1
    else LastLevel1(lines[..|lines| - 1])
  }

  /** The search order: the first level-3 heading visited; failing that the
      last level-1 heading visited; failing that the fallback. */
  lemma {:induction false} ScanTitleSpec(lines: seq<string>, header: string)
    ensures ScanTitle(lines, header) ==
      if FirstLevel3(lines) < |lines| then Strip(lines[FirstLevel3(lines)])
      else if LastLevel1(lines) >= 0 then Strip(lines[LastLevel1(lines)])
      else header
  {
    if lines != [] && !IsLevel3(lines[0]) {
      var h := if IsLevel1(lines[0]) then Strip(lines[0]) else header;
      ScanTitleSpec(lines[1..], h);
      var k := FirstLevel3(lines[1..]);
      assert FirstLevel3(lines) == k + 1;
      if k == |lines| - 1 {
        var j := LastLevel1(lines[1..]);
        if j >= 0 {
          assert LastLevel1(lines) == j + 1;
        } else if IsLevel1(lines[0]) {
          assert LastLevel1(lines) == 0;
        } else {
          assert LastLevel1(lines) == -1;
        }
      }
    }
  }

  /** A level-1 heading does not end the search: when a level-3 heading is
      still to come, the lines before it decide nothing, whatever headings
      they hold and whatever fallback was seen. */
  lemma {:induction false} Level1DoesNotStop(pre: seq<string>, post: seq<string>, header: string, other: string)
    requires forall i :: 0 <= i < |pre| ==> !IsLevel3(pre[i])
    requires FirstLevel3(post) < |post|
    ensures ScanTitle(pre + post, header) == ScanTitle(post, other)
  {
    if pre == [] {
      assert pre + post == post;
      ScanTitleSpec(post, header);
      ScanTitleSpec(post, other);
    } else {
      assert (pre + post)[1..] == pre[1..] + post;
      var h := if IsLevel1(pre[0]) then Strip(pre[0]) else header;
      Level1DoesNotStop(pre[1..], post, h, other);
    }
  }

  lemma {:induction false} StripLeftPrefix(p: string, text: string)
    requires forall k :: 0 <= k < |p| ==> IsStripChar(p[k])
    requires text != [] && !IsStripChar(text[0])
    ensures StripLeft(p + text) == text
  {
    if p == [] {
      assert p + text == text;
    } else {
      assert (p + text)[1..] == p[1..] + text;
      StripLeftPrefix(p[1..], text);
    }
  }

  /** The nearest markdown cell decides first: when the cell just before the
      marker is a level-3 heading, its text is the title, whatever the earlier
      cells hold. */
  lemma NearestLevel3Wins(cells: seq<Cell>, text: string)
    requires text != [] && !IsStripChar(text[0]) && !IsStripChar(text[|text| - 1])
    requires NoLineBreak(text)
    ensures GalleryImageTitle(cells + [Cell(Markdown, "### " + text, [])]) == text
  {
    var line := "### " + text;
    var md := Cell(Markdown, line, []);
    var all := cells + [md];
    assert all[..|all| - 1] == cells;
    assert NoLineBreak(line);
    SingleLine(line);
    assert MarkdownLines(all) == [line] + MarkdownLines(cells);
    StripLeftPrefix("### ", text);
    assert IsLevel3(line);
  }

  /** A lone level-3 heading before the marker gives its text as the title. */
  lemma Level3Title(text: string)
    requires text != [] && !IsStripChar(text[0]) && !IsStripChar(text[|text| - 1])
    requires NoLineBreak(text)
    ensures GalleryImageTitle([Cell(Markdown, "### " + text, [])]) == text
  {
    NearestLevel3Wins([], text);
    assert [] + [Cell(Markdown, "### " + text, [])] == [Cell(Markdown, "### " + text, [])];
  }
}
